=== FILE: README.md ===
# Oxford dictionary lookup for Anki, modelled in Dafny

The script looks a word up in Oxford Learner's Dictionary and turns the
entry into an Anki card. This project models its core:

- **Extractor** (`OxfordDictionary` in oxford_dict.py):
  - the search term `word.lower().strip().replace(' ', '-')` and the page URL;
  - the selection rules. Pronunciation and part of speech are the first
    match's text, or `""` when nothing matched. Definitions are the non-empty
    texts among the first 5 candidates, and examples the non-empty texts
    among the first 3;
  - the result policy of `search_word`. A failed request gives no record, a
    page without definitions gives no record, and every other page gives a
    record with all four fields.
- **Formatter** (`AnkiFormatter`):
  - the CSV row `[word, pronunciation, pos, definitions, examples]`. The
    definitions are numbered `"1. "`, `"2. "`, ... and the examples bulleted
    `"• "`. Each list is joined with `<br>`, and a missing key gives `""`;
  - the console block `format_for_display`. It is a 60-character `=` rule,
    the word, each optional field or section only when it is present and
    non-empty, and the closing rule, as a list of elements joined with line
    feeds.
- **Example** (example.py):
  - its stand-alone copy of `format_for_csv`, proved to give the same row as
    the `AnkiFormatter` version for every record;
  - the sample records it writes out, proved to look like extracted records.
- **Scenarios**: the formatter inputs of test_oxford_dict.py, with the
  outputs those tests check: the CSV row tests, the display test of the
  full fixture and the display test of the minimal record.

Every operation has a partner:

- a round trip: `ParseRow(FormatForCsv(d)) == Some(WithDefaults(d))`,
  `Split` after `Join`, and `ParseNat` after `NatToString`;
- a loop proved equal to its functional definition;
- an idempotence property for the search term;
- an element-by-element characterisation of the display block.

Modules, one file each:

- `Wrappers`: `Option`.
- `Text`: occurrence, `find`, `sep.join` and `split`.
- `Decimal`: `str(n)` and reading it back.
- `PyStr`: `isspace`, `lower`, `strip` and `replace`.
- `Record`: the word dictionary. A key the dictionary may lack is an `Option`.
- `Extractor`, `Formatter`, `Example` and `Scenarios`.

I/O is not modelled:

- The HTTP request is a parameter. `SearchWord` takes a function from the
  URL to a `Response`, which is either a `Fetched` page or `RequestFailed`.
- HTML parsing is replaced by the `Page` datatype. It holds, for each of the
  four CSS selector queries, the texts of the matched elements in document
  order, already stripped.

The display block is built as a list `output` of elements that are then
joined with line feeds. An element can itself hold line feeds: the opening
rule is `"\n"` followed by the rule, the headers start with `"\n"`, and a word
or field text may contain one. The display properties therefore speak of
elements of that list, not of the text lines of the joined string. The
absence of an empty section holds element by element, not as a substring of
the block:

- `Formatter.DisplayListSections` proves that the element `"\nDefinitions:"`
  is in the list exactly when definitions are present and non-empty.
- The word itself can carry the text `Definitions:`, and
  `Formatter.DisplayHeaderTextFromWord` shows such a block.

## Model

| member | source | states |
|---|---|---|
| Extractor.SearchTerm | oxford_dict.py:38 | the term is no longer than the word, holds no space and no upper-case ASCII letter, and neither starts nor ends with white space |
| Extractor.SearchTermPlacement | oxford_dict.py:38 | the term is the word with its leading and trailing white space removed: every character before and after it in the word is white space, and its character `i` is the word's character at the same offset, lower-cased, or `-` where the word has a space; the word's characters at the term's first and last position are not white space, so the removed margins are maximal |
| Extractor.SearchTermIdempotent | oxford_dict.py:38 | normalising a search term a second time leaves it unchanged |
| Extractor.UrlSameTerm | oxford_dict.py:38-39 | two words give the same URL exactly when they give the same search term |
| Extractor.FirstOrEmpty | oxford_dict.py:61-73 | the first match's text when the query matched something, `""` when it matched nothing |
| Extractor.GetPronunciation | oxford_dict.py:61-66 | no contract of its own: `FirstOrEmpty` of the `.phonetics .phon` texts; see Extractor.FirstOrEmpty and Extractor.FirstWins |
| Extractor.GetPartOfSpeech | oxford_dict.py:68-73 | no contract of its own: `FirstOrEmpty` of the `.pos` texts; see Extractor.FirstOrEmpty and Extractor.FirstWins |
| Extractor.FirstWins | oxford_dict.py:61-73 | pronunciation and part of speech are the first match's text, whatever follows it |
| Extractor.KeepNonEmpty | oxford_dict.py:80-83 | the result is a subsequence with no empty text that holds every non-empty text exactly as often as the input does |
| Extractor.SubsequenceCounts | oxford_dict.py:80-83 | a subsequence holds no text more often than the sequence it was taken from |
| Extractor.NonEmptyPartOfUnique | oxford_dict.py:80-83 | that description fixes the result: the only such sequence is `KeepNonEmpty(s)` |
| Extractor.KeepNonEmptyAppend | oxford_dict.py:80-83 | filtering a concatenation is the concatenation of the filtered parts |
| Extractor.NonEmptyInWindow | oxford_dict.py:75-97 | at most `cap` texts, none empty, a subsequence of the first `cap` candidates holding each non-empty one among them exactly as often as it occurs there |
| Extractor.GetDefinitions | oxford_dict.py:75-85 | at most 5 texts: the first five senses without their empty texts, in order, each non-empty one as often as it occurs |
| Extractor.GetExamples | oxford_dict.py:87-97 | at most 3 texts: the first three examples without their empty texts, in order, each non-empty one as often as it occurs |
| Extractor.CollectNonEmpty | oxford_dict.py:77-85 | the appending loop over `candidates[:cap]` returns exactly `NonEmptyInWindow` |
| Extractor.WindowIgnoresLater | oxford_dict.py:80 | candidates past the first `cap` never change the selection |
| Extractor.SearchWord | oxford_dict.py:36-59 | a failed request gives no record; a fetched page gives no record iff it yields no definition; a record carries the searched word with 1 to 5 non-empty definitions and at most 3 non-empty examples |
| Extractor.SearchWordFields | oxford_dict.py:47-55 | a returned record came from a fetched page; it carries the searched word, the first pronunciation and part of speech matched or `""`, and as definitions and examples the first five senses and first three examples without their empty texts |
| Formatter.NumberedItems | oxford_dict.py:119-121 | item `i` is the decimal numeral of `first + i`, `". "` and definition `i` |
| Formatter.DefinitionsBlock | oxford_dict.py:119-121 | no contract of its own; see Formatter.DefinitionsBlockEmpty, Formatter.DefinitionsBlockSegments, Formatter.DefinitionsBlockRoundTrip and Formatter.ItemTextPassesThrough |
| Formatter.ExamplesBlock | oxford_dict.py:124-126 | no contract of its own; see Formatter.ExamplesBlockEmpty, Formatter.ExamplesBlockSegments, Formatter.ExamplesBlockRoundTrip and Formatter.ItemTextPassesThrough |
| Formatter.FormatForCsv | oxford_dict.py:104-128 | five fields; the word first; pronunciation and part of speech as given, `""` when the key is missing; the definitions field is `""` exactly when definitions are missing or empty, and likewise the examples field |
| Formatter.ParseNumberedItemRoundTrip | oxford_dict.py:120 | `"k. text"` reads back as `k` and `text` |
| Formatter.ParseNumberedItemsRoundTrip | oxford_dict.py:119-121 | the numbered items read back as the definitions they were made from |
| Formatter.ParseBulletItemsRoundTrip | oxford_dict.py:124-126 | the bulleted items read back as the examples they were made from |
| Formatter.NumberedItemNoLineBreak | oxford_dict.py:120 | numbering adds no `<br>` to an item |
| Formatter.BulletItemNoLineBreak | oxford_dict.py:125 | the bullet adds no `<br>` to an item |
| Formatter.DefinitionsBlockEmpty | oxford_dict.py:119-121 | the definitions field is empty iff there are no definitions |
| Formatter.ExamplesBlockEmpty | oxford_dict.py:124-126 | the examples field is empty iff there are no examples |
| Formatter.DefinitionsBlockSegments | oxford_dict.py:119-121 | when no definition holds `<br>`, splitting a non-empty definitions field at `<br>` gives exactly the numbered items |
| Formatter.ExamplesBlockSegments | oxford_dict.py:124-126 | when no example holds `<br>`, splitting a non-empty examples field at `<br>` gives exactly the bulleted items |
| Formatter.DefinitionsBlockRoundTrip | oxford_dict.py:119-121 | the definitions field reads back as the definitions, when none holds `<br>` |
| Formatter.ExamplesBlockRoundTrip | oxford_dict.py:124-126 | the examples field reads back as the examples, when none holds `<br>` |
| Formatter.RowRoundTrip | oxford_dict.py:104-128 | when no definition and no example holds `<br>`, the row reads back as the record with every missing key replaced by `""` or `[]`: word, pronunciation and part of speech verbatim, definitions and examples recovered |
| Formatter.ItemTextPassesThrough | oxford_dict.py:114-128 | no escaping: any text inside a definition or example, `<`, `>` and `&` included, occurs in its field |
| Formatter.UnescapedMarkerIsAmbiguous | oxford_dict.py:119-121 | one definition holding `<br>2. ` gives the same field as two definitions |
| Formatter.DisplayLines | oxford_dict.py:141-161 | no contract of its own; its elements are described by Formatter.DisplayLineAt and the rows after it |
| Formatter.FormatForDisplay | oxford_dict.py:131-162 | no contract of its own; the joined text is described by Formatter.DisplayFrame and Formatter.DisplayHeaderTextFromWord |
| Formatter.DisplayFrame | oxford_dict.py:141-162 | the rule is 60 `=`; the block starts with a line feed, the rule, a line feed and `Word: <word>`, and ends with a line feed, the rule and a line feed |
| Formatter.DisplayLineAt | oxford_dict.py:141-161 | each element of the `output` list is the opening rule, the word element, an element of one of the optional sections in order, or the closing rule |
| Formatter.DisplayPronunciationLine | oxford_dict.py:145-146 | an element of the `output` list starts with `Pronunciation: ` iff the pronunciation is present and non-empty, and then element 2 is that one |
| Formatter.DisplayPosLine | oxford_dict.py:148-149 | an element of the `output` list starts with `Part of Speech: ` iff the part of speech is present and non-empty, and it follows the pronunciation element |
| Formatter.DisplayLabelOrigin | oxford_dict.py:145-149 | a labelled element of the `output` list comes only from a present, non-empty field |
| Formatter.DisplayUnlabelledLine | oxford_dict.py:141-161 | no element of the `output` list outside the two labelled ones starts with `P` |
| Formatter.DisplayHeaderOrigin | oxford_dict.py:151-157 | a header element of the `output` list comes only from a present, non-empty list |
| Formatter.DisplayListSections | oxford_dict.py:151-159 | the definitions header is an element of the `output` list iff definitions are present and non-empty; likewise for examples |
| Formatter.DefinitionsStart | oxford_dict.py:141-152 | the definitions header follows the rule, the word element and whichever optional elements are present |
| Formatter.DefinitionsLineAt | oxford_dict.py:151-154 | the definitions section sits unchanged at its start index |
| Formatter.DefinitionAt | oxford_dict.py:153-154 | definition `i` is shown as `"  " + "{i+1}. " + text` in the element `i + 1` after the header |
| Formatter.DisplayDefinitionsListed | oxford_dict.py:151-154 | with definitions, the header element is followed by all definitions numbered from 1, indented, in order |
| Formatter.DisplayExamplesListed | oxford_dict.py:156-161 | with examples, the header element is followed by all bulleted, indented examples, right before the closing rule |
| Formatter.DisplayHeaderTextFromWord | oxford_dict.py:143 | a word spelling `Definitions:` puts that text in a block that has no definitions |
| Example.FormatForCsv | example.py:62-78 | for every record, the row equals the `AnkiFormatter.format_for_csv` row |
| Example.JoinNumbered | example.py:69-71 | the generator and `'<br>'.join`, written here as a loop that appends one item per step, yield exactly the numbered definitions joined with `<br>` |
| Example.JoinBulleted | example.py:74-76 | the generator and `'<br>'.join`, written here as a loop that appends one item per step, yield exactly the bulleted examples joined with `<br>` |
| Scenarios.OneDefinition | oxford_dict.py:119-121 | a single definition gives the field `"1. " + text` with no `<br>` |
| Scenarios.TwoDefinitions | oxford_dict.py:119-121 | two definitions give `"1. a<br>2. b"` |
| Scenarios.FiveItems | oxford_dict.py:120 | five definitions are numbered 1 to 5 |
| Scenarios.FiveDefinitions | oxford_dict.py:119-121 | five definitions give `"1. a<br>2. b<br>3. c<br>4. d<br>5. e"` |
| Scenarios.TwoExamples | oxford_dict.py:124-126 | two examples give `"• a<br>• b"` |
| Scenarios.ThreeExamples | oxford_dict.py:124-126 | three examples give `"• a<br>• b<br>• c"` |
| Scenarios.CsvBasic | test_oxford_dict.py:37-49 | the fixture's full row, both lists numbered or bulleted and joined with `<br>` |
| Scenarios.CsvMinimal | test_oxford_dict.py:51-65 | missing pronunciation, part of speech and examples give empty fields; one definition gives `1. Single definition` |
| Scenarios.CsvKeepsMarkup | test_oxford_dict.py:94-106 | `<test>` and `&` reach the row unchanged |
| Scenarios.CsvManyItems | test_oxford_dict.py:112-140 | five definitions numbered 1 to 5; three examples, each bulleted |
| Scenarios.DisplayBasicLines | test_oxford_dict.py:67-78 | the exact `output` list for the full fixture: rule, word, pronunciation and part-of-speech lines, the definitions header and both numbered definitions, the examples header and both bulleted examples, and the closing rule |
| Scenarios.DisplayBasic | test_oxford_dict.py:67-78 | the block for the full fixture contains each text the test looks for: `Word: test`, `Pronunciation: /test/`, `Part of Speech: noun`, `Definitions:`, `1. A procedure to check quality`, `Examples:`, `• This is a test.` and a rule of 60 `=` |
| Scenarios.DisplayMinimal | test_oxford_dict.py:80-91 | the exact `output` list of a record with only a word and one definition |
| Scenarios.DefinitionsWindowNotRefilled | oxford_dict.py:80-83 | an empty first sense is dropped and the sixth sense is not looked at, leaving four definitions |
| Scenarios.NoDefinitionsNoRecord | oxford_dict.py:55 | a page with pronunciation, part of speech and examples but no sense gives no record |
| Scenarios.SearchTermDropsTrailingSpace | oxford_dict.py:38 | the word `"a "` gives the search term `"a"`: the trailing space is stripped before spaces become `-` |
| Scenarios.SampleDataExtracted | example.py:11-59 | there are three sample records, and each has every field present, 1 to 5 non-empty definitions and at most 3 non-empty examples, as an extracted record does |
| Text.SplitJoin | oxford_dict.py:119-126 | splitting a `sep.join` of at least one piece, none holding the separator, at an unbordered separator gives the pieces back |
| Text.JoinSnoc | example.py:69-76 | appending a part to a non-empty list extends the join by the separator and that part |
| Text.JoinContainsPart | oxford_dict.py:119-126 | a text inside one part occurs in the join |
| Text.JoinStart | oxford_dict.py:162 | a join of at least two parts starts with the first part, the separator and the second part |
| Text.JoinEnd | oxford_dict.py:162 | a join of at least two parts ends with the separator and the last part |
| Decimal.NatToString | oxford_dict.py:120 | at least one digit, only digits, and no leading zero unless the number is 0 |
| Decimal.ParseNatToString | oxford_dict.py:120 | reading the numeral back gives the number |
| Decimal.NatToStringInjective | oxford_dict.py:120 | distinct numbers get distinct numerals |
| PyStr.Lower | oxford_dict.py:38 | same length; every character is lower-cased in place |
| PyStr.Strip | oxford_dict.py:38 | the result is no longer than the input and neither starts nor ends with white space; where it sits in the input is PyStr.StripSlice |
| PyStr.LowerCharSpace | oxford_dict.py:38 | lower-casing a character neither makes nor removes white space |
| PyStr.StripSlice | oxford_dict.py:38 | the stripped text is the slice of the input between two all-white-space ends |
| PyStr.StripTrimmed | oxford_dict.py:38 | a text without white space at either end is left unchanged |
| PyStr.StripNoUpper | oxford_dict.py:38 | stripping keeps a text free of upper-case letters |
| PyStr.ReplaceChar | oxford_dict.py:38 | same length; every `from` becomes `to` and every other character stays |
| PyStr.LowerNoUpper | oxford_dict.py:38 | lower-casing a text with no upper-case letter leaves it unchanged |
| PyStr.ReplaceAbsent | oxford_dict.py:38 | replacing an absent character leaves the text unchanged |
| Record.WithDefaults | oxford_dict.py:114-116 | every missing key is filled with `""` or `[]`; present keys are kept |

## Left out

- The HTTP session, its User-Agent header, the 10-second timeout and `raise_for_status` (oxford_dict.py:20-24, 41-42). They appear only as the `Response` a fetch returns.
- BeautifulSoup and the CSS selectors (oxford_dict.py:44, 63, 70, 78, 90). `Page` holds the texts each selector yields, already passed through `get_text(strip=True)`.
- The error message printed to standard error when a request fails (oxford_dict.py:58). It is output only.
- Exceptions other than `requests.RequestException`. They escape `search_word` and are not modelled.
- `main()` in both files: argparse, the tab-separated CSV writer and its quoting, file output and the console preview (oxford_dict.py:165-249, example.py:81-118). These are I/O.
- en_cambrigde.js is not part of this model.
- PyStr.Lower: lower-cases ASCII letters only. Python's `str.lower` also maps non-ASCII letters. Modelling that needs the Unicode case tables.
- Extractor.SearchTerm: its no-upper-case guarantee, and Extractor.SearchTermPlacement's lower-casing, cover ASCII letters only, for the same reason.
- A dictionary without a `'word'` key raises `KeyError` in the formatters. `word` is a mandatory field of `WordData`, so that case is not modelled.
- A key that is present with the value `None` is not modelled. `Option` distinguishes only a present value from a missing key.
- Formatter.FormatForCsv: its own contract fixes the word, pronunciation and part of speech fields, and when the two list fields are empty, but not the list fields' contents. Those are stated by `Formatter.RowRoundTrip` for items free of `<br>`, by `Formatter.ItemTextPassesThrough` for all items, and by the scenario lemmas.

=== FILE: decimal.dfy ===
/** Decimal numerals as Python's `str(n)` writes a non-negative integer,
    and reading them back. */
module Decimal {

  predicate IsDigit(c: char) {
    '0' <= c <= '9'
  }

  predicate AllDigits(s: string) {
    forall i :: 0 <= i < |s| ==> IsDigit(s[i])
  }

  function DigitChar(d: nat): (c: char)
    requires d < 10
    ensures IsDigit(c)
  {
    (48 + d) as char
  }

  function DigitValue(c: char): (d: nat)
    requires IsDigit(c)
    ensures d < 10
  {
    c as int - 48
  }

  /** The decimal numeral of `n`: at least one digit, and no leading zero
      unless `n` is zero itself. */
  function NatToString(n: nat): (s: string)
    ensures |s| >= 1
    ensures AllDigits(s)
    ensures n == 0 <==> s == "0"
    ensures n > 0 ==> s[0] != '0'
    decreases n
  {
    if n < 10 then [DigitChar(n)]
    else NatToString(n / 10) + [DigitChar(n % 10)]
  }

  /** The value of a string of decimal digits (the empty string reads as 0). */
  function ParseNat(s: string): nat
    requires AllDigits(s)
  {
    if |s| == 0 then 0
    else 10 * ParseNat(s[..|s| - 1]) + DigitValue(s[|s| - 1])
  }

  /** Reading a numeral back gives the number that was written. */
  lemma {:induction false} ParseNatToString(n: nat)
    ensures ParseNat(NatToString(n)) == n
  {
    var s := NatToString(n);
    if n < 10 {
      assert s[..0] == "";
    } else {
      ParseNatToString(n / 10);
      assert s[..|s| - 1] == NatToString(n / 10);
    }
  }

  /** Distinct numbers have distinct numerals. */
  lemma NatToStringInjective(m: nat, n: nat)
    requires NatToString(m) == NatToString(n)
    ensures m == n
  {
    ParseNatToString(m);
    ParseNatToString(n);
  }
}

=== FILE: example.dfy ===
/** example.py: a stand-alone copy of the row formatter and the sample
    records it writes out. */
module Example {
  import opened Wrappers
  import opened Record
  import Text
  import Decimal
  import Formatter

  /** `create_sample_data()`: the three records example.py writes out. Long
      texts are written as concatenations of short pieces, which is the same
      string. */
  function SampleData(): seq<WordData> {
    [SampleHello(), SampleWorld(), SampleExample()]
  }

  function SampleHello(): WordData {
    WordData(
      "hello",
      Some("/h\U{0259}\U{02C8}l\U{0259}\U{028A}/"),
      Some("exclamation, noun"),
      Some([ "used as a greeting " + "when you meet " + "somebody, when you " + "answer the " + "telephone or when " + "you want to attract " + "somebody's attention",
             "used to show that " + "you are surprised " + "by something",
             "used to show that " + "you think somebody " + "has said or done " + "something stupid" ]),
      Some([ "Hello! How are you " + "today?",
             "I just called to " + "say hello.",
             "Hello? Is anybody " + "there?" ]))
  }

  function SampleWorld(): WordData {
    WordData(
      "world",
      Some("/w\U{025C}\U{02D0}ld/"),
      Some("noun"),
      Some([ "the earth, with all " + "its countries, " + "peoples and natural " + "features",
             "a particular part " + "of the earth",
             "a particular period " + "of history and the " + "people of that time" ]),
      Some([ "to travel around " + "the world",
             "the world's largest " + "democracy",
             "the ancient world" ]))
  }

  function SampleExample(): WordData {
    WordData(
      "example",
      Some("/\U{026A}\U{0261}\U{02C8}z\U{0251}\U{02D0}mpl/"),
      Some("noun"),
      Some([ "something such as " + "an object, a fact " + "or a situation that " + "shows, explains or " + "supports what you " + "say",
             "a thing that is " + "typical of or " + "represents a " + "particular group or " + "set",
             "a person or their " + "behaviour that is " + "thought to be a " + "good model for " + "others to copy" ]),
      Some([ "Can you give me an " + "example of what you " + "mean?",
             "This is a good " + "example of the " + "artist's early work.",
             "Her courage is an " + "example to us all." ]))
  }

  /** `format_for_csv` of example.py. Its source is the same generator and
      `'<br>'.join` as `AnkiFormatter.format_for_csv`; here each join is
      written out as a loop that appends one item per step, and the row is
      proved equal to the `AnkiFormatter` row for every record. */
  method FormatForCsv(d: WordData) returns (row: seq<string>)
    ensures row == Formatter.FormatForCsv(d)
  {
    var definitions := JoinNumbered(d.definitions.GetOr([]));
    var examples := JoinBulleted(d.examples.GetOr([]));
    row := [d.word, d.pronunciation.GetOr(""), d.pos.GetOr(""), definitions, examples];
  }

  /** `'<br>'.join(f"{i+1}. {defn}" for i, defn in enumerate(defs))`. The
      source has no loop here; this one, appending one item per step, is
      this model's rendering of `str.join`. */
  method JoinNumbered(defs: seq<string>) returns (definitions: string)
    ensures definitions == Formatter.DefinitionsBlock(defs)
  {
    definitions := "";
    var i := 0;
    while i < |defs|
      invariant i <= |defs|
      invariant definitions == Text.Join(Formatter.NumberedItems(defs[..i], 1), Formatter.LineBreak)
    {
      var item := Decimal.NatToString(i + 1) + ". " + defs[i];
      var before := Formatter.NumberedItems(defs[..i], 1);
      var after := Formatter.NumberedItems(defs[..i + 1], 1);
      assert after == before + [item];
      if i == 0 {
        definitions := item;
      } else {
        Text.JoinSnoc(after, Formatter.LineBreak);
        assert after[..i] == before;
        definitions := definitions + Formatter.LineBreak + item;
      }
      i := i + 1;
    }
    assert defs[..i] == defs;
  }

  /** `'<br>'.join(f"• {ex}" for ex in examples)`, rendered like
      `JoinNumbered` as a loop that appends one item per step. */
  method JoinBulleted(examples: seq<string>) returns (joined: string)
    ensures joined == Formatter.ExamplesBlock(examples)
  {
    joined := "";
    var j := 0;
    while j < |examples|
      invariant j <= |examples|
      invariant joined == Text.Join(Formatter.BulletItems(examples[..j]), Formatter.LineBreak)
    {
      var item := Formatter.BulletMark + examples[j];
      var before := Formatter.BulletItems(examples[..j]);
      var after := Formatter.BulletItems(examples[..j + 1]);
      assert after == before + [item];
      if j == 0 {
        joined := item;
      } else {
        Text.JoinSnoc(after, Formatter.LineBreak);
        assert after[..j] == before;
        joined := joined + Formatter.LineBreak + item;
      }
      j := j + 1;
    }
    assert examples[..j] == examples;
  }
}

=== FILE: extractor.dfy ===
/** The extraction half of `OxfordDictionary` (oxford_dict.py): turning a
    word into the page URL, and the selection rules that pick the
    pronunciation, part of speech, definitions and examples out of what the
    page's selector queries return. */
module Extractor {
  import opened Wrappers
  import opened Record
  import PyStr

  const BaseUrl := "https://www.oxfordlearnersdictionaries.com/definition/english/"

  /** How many definition candidates and example candidates are looked at. */
  const MaxDefinitions: nat := 5
  const MaxExamples: nat := 3

  /** What each selector query returns for one page: the matched elements'
      texts in document order, already stripped of surrounding white space.
      `phonetics` answers `.phonetics .phon`, `partsOfSpeech` answers `.pos`,
      `senses` answers `.senses_multiple .def, .sense-body .def` and
      `exampleTexts` answers `.examples .x, .examples .unx`. */
  datatype Page = Page(
    phonetics: seq<string>,
    partsOfSpeech: seq<string>,
    senses: seq<string>,
    exampleTexts: seq<string>)

  /** The outcome of the HTTP GET for one URL: a parsed page, or any
      request error (network failure, timeout, non-success status). */
  datatype Response = Fetched(page: Page) | RequestFailed

  /** What the extractor promises of every record it returns. */
  predicate IsExtracted(d: WordData) {
    && d.pronunciation.Some? && d.pos.Some?
    && d.definitions.Some? && d.examples.Some?
    && 1 <= |d.definitions.value| <= MaxDefinitions
    && NoEmpty(d.definitions.value)
    && |d.examples.value| <= MaxExamples
    && NoEmpty(d.examples.value)
  }

  // ---------------------------------------------------------------------
  // The search term

  /** `word.lower().strip().replace(' ', '-')`. Where the term sits in the
      word is `SearchTermPlacement`. */
  function SearchTerm(word: string): (term: string)
    ensures |term| <= |word|
    ensures forall i :: 0 <= i < |term| ==> term[i] != ' ' && !PyStr.IsUpper(term[i])
    ensures |term| > 0 ==> !PyStr.IsSpace(term[0]) && !PyStr.IsSpace(term[|term| - 1])
  {
    SearchTermShape(word);
    PyStr.ReplaceChar(PyStr.Strip(PyStr.Lower(word)), ' ', '-')
  }

  /** `term` is the part of `word` from `start` on, between white space
      before it and white space after it, each character lower-cased and each
      space turned into `-`; the word's characters at the term's two ends are
      not white space, so all of the surrounding white space is gone. */
  ghost predicate PlacedIn(word: string, term: string, start: nat) {
    && start + |term| <= |word|
    && (forall k :: 0 <= k < start ==> PyStr.IsSpace(word[k]))
    && (forall k :: start + |term| <= k < |word| ==> PyStr.IsSpace(word[k]))
    && (forall i :: 0 <= i < |term| ==>
          term[i] == (if word[start + i] == ' ' then '-' else PyStr.LowerChar(word[start + i])))
    && (|term| > 0 ==> !PyStr.IsSpace(word[start]) && !PyStr.IsSpace(word[start + |term| - 1]))
  }

  /** The term is the part of the word between its leading and trailing
      white space, each character lower-cased and each space turned into
      `-`. */
  lemma SearchTermPlacement(word: string)
    ensures PlacedIn(word, SearchTerm(word), PyStr.StripStart(PyStr.Lower(word)))
  {
    var lowered := PyStr.Lower(word);
    var stripped := PyStr.Strip(lowered);
    PyStr.StripSlice(lowered);
    SearchTermInWord(word, lowered, stripped, PyStr.StripStart(lowered), SearchTerm(word));
  }

  /** The term holds no space and no upper-case letter and is trimmed. */
  lemma SearchTermShape(word: string)
    ensures var term := PyStr.ReplaceChar(PyStr.Strip(PyStr.Lower(word)), ' ', '-');
            && |term| <= |word|
            && (forall i :: 0 <= i < |term| ==> term[i] != ' ' && !PyStr.IsUpper(term[i]))
            && (|term| > 0 ==> !PyStr.IsSpace(term[0]) && !PyStr.IsSpace(term[|term| - 1]))
  {
    var lowered := PyStr.Lower(word);
    PyStr.StripNoUpper(lowered);
    ReplaceSpacesShape(PyStr.Strip(lowered));
  }

  /** Replacing the spaces of a trimmed text free of upper-case letters. */
  lemma ReplaceSpacesShape(stripped: string)
    requires forall i :: 0 <= i < |stripped| ==> !PyStr.IsUpper(stripped[i])
    requires |stripped| > 0 ==> !PyStr.IsSpace(stripped[0]) && !PyStr.IsSpace(stripped[|stripped| - 1])
    ensures var term := PyStr.ReplaceChar(stripped, ' ', '-');
            && |term| == |stripped|
            && (forall i :: 0 <= i < |term| ==> term[i] != ' ' && !PyStr.IsUpper(term[i]))
            && (|term| > 0 ==> !PyStr.IsSpace(term[0]) && !PyStr.IsSpace(term[|term| - 1]))
  {
    var term := PyStr.ReplaceChar(stripped, ' ', '-');
    if |term| > 0 {
      assert term[0] == stripped[0] && term[|term| - 1] == stripped[|stripped| - 1];
    }
  }

  /** Where the term sits in the word: after white space, before white
      space, and each of its characters made from the word's character at the
      same offset. */
  lemma SearchTermInWord(word: string, lowered: string, stripped: string, start: nat, term: string)
    requires lowered == PyStr.Lower(word)
    requires PyStr.TrimmedAt(lowered, stripped, start)
    requires |stripped| > 0 ==> !PyStr.IsSpace(stripped[0]) && !PyStr.IsSpace(stripped[|stripped| - 1])
    requires term == PyStr.ReplaceChar(stripped, ' ', '-')
    ensures PlacedIn(word, term, start)
  {
    if |term| > 0 {
      var last := start + |term| - 1;
      assert stripped[0] == lowered[start] == PyStr.LowerChar(word[start]);
      assert stripped[|stripped| - 1] == lowered[last] == PyStr.LowerChar(word[last]);
      PyStr.LowerCharSpace(word[start]);
      PyStr.LowerCharSpace(word[last]);
    }
    forall k | 0 <= k < |word| && (k < start || start + |term| <= k)
      ensures PyStr.IsSpace(word[k])
    {
      assert lowered[k] == PyStr.LowerChar(word[k]);
      PyStr.LowerCharSpace(word[k]);
    }
    forall i | 0 <= i < |term|
      ensures term[i] == (if word[start + i] == ' ' then '-' else PyStr.LowerChar(word[start + i]))
    {
      assert stripped[i] == lowered[start + i] == PyStr.LowerChar(word[start + i]);
    }
  }

  /** The page URL for `word`. */
  function Url(word: string): (url: string)
    ensures |url| == |BaseUrl| + |SearchTerm(word)|
    ensures url[..|BaseUrl|] == BaseUrl && url[|BaseUrl|..] == SearchTerm(word)
  {
    BaseUrl + SearchTerm(word)
  }

  /** Two words lead to the same page exactly when their search terms agree. */
  lemma UrlSameTerm(a: string, b: string)
    ensures Url(a) == Url(b) <==> SearchTerm(a) == SearchTerm(b)
  {
    if Url(a) == Url(b) {
      assert Url(a)[|BaseUrl|..] == Url(b)[|BaseUrl|..];
    }
  }

  /** Normalising a search term again changes nothing. */
  lemma SearchTermIdempotent(word: string)
    ensures SearchTerm(SearchTerm(word)) == SearchTerm(word)
  {
    var t := SearchTerm(word);
    PyStr.LowerNoUpper(t);
    PyStr.StripTrimmed(t);
    PyStr.ReplaceAbsent(t, ' ', '-');
  }

  // ---------------------------------------------------------------------
  // Selection rules

  /** The first candidate's text, or `""` when the query matched nothing. */
  function FirstOrEmpty(candidates: seq<string>): (r: string)
    ensures |candidates| == 0 ==> r == ""
    ensures |candidates| > 0 ==> r == candidates[0]
  {
    if |candidates| > 0 then candidates[0] else ""
  }

  /** `_get_pronunciation`: the first `.phonetics .phon` text, or `""`. */
  function GetPronunciation(page: Page): string {
    FirstOrEmpty(page.phonetics)
  }

  /** `_get_part_of_speech`: the first `.pos` text, or `""`. */
  function GetPartOfSpeech(page: Page): string {
    FirstOrEmpty(page.partsOfSpeech)
  }

  /** `s[:n]`. */
  function Take(s: seq<string>, n: nat): (r: seq<string>)
    ensures |r| <= n && |r| <= |s| && r == s[..|r|]
    ensures |s| <= n ==> r == s
    ensures |s| > n ==> |r| == n
  {
    if |s| <= n then s else s[..n]
  }

  /** `a` can be obtained from `b` by deleting elements. */
  predicate IsSubsequence(a: seq<string>, b: seq<string>)
    decreases |b|
  {
    || |a| == 0
    || (&& |b| > 0
        && if a[0] == b[0] then IsSubsequence(a[1..], b[1..]) else IsSubsequence(a, b[1..]))
  }

  /** `r` is `s` with its empty texts taken out: no empty text, the order of
      `s`, and every non-empty text exactly as often as in `s`. */
  ghost predicate NonEmptyPartOf(r: seq<string>, s: seq<string>) {
    && NoEmpty(r)
    && IsSubsequence(r, s)
    && forall x :: x != "" ==> multiset(r)[x] == multiset(s)[x]
  }

  /** The non-empty elements of `s`, in their order. */
  function KeepNonEmpty(s: seq<string>): (r: seq<string>)
    ensures |r| <= |s|
    ensures NoEmpty(r)
    ensures forall x :: x in r <==> x in s && x != ""
    ensures IsSubsequence(r, s)
    ensures forall x :: x != "" ==> multiset(r)[x] == multiset(s)[x]
  {
    if |s| == 0 then []
    else if s[0] != "" then
      assert s == [s[0]] + s[1..];
      [s[0]] + KeepNonEmpty(s[1..])
    else
      assert s == [s[0]] + s[1..];
      KeepNonEmpty(s[1..])
  }

  /** The texts a selection with cap `cap` keeps: the non-empty ones among the
      first `cap` candidates, in their order. An empty candidate in the window
      leaves a gap that later candidates do not fill. */
  function NonEmptyInWindow(candidates: seq<string>, cap: nat): (r: seq<string>)
    ensures |r| <= cap
    ensures NoEmpty(r)
    ensures forall x :: x in r <==> x in Take(candidates, cap) && x != ""
    ensures IsSubsequence(r, Take(candidates, cap))
    ensures forall x :: x != "" ==> multiset(r)[x] == multiset(Take(candidates, cap))[x]
  {
    KeepNonEmpty(Take(candidates, cap))
  }

  /** `_get_definitions`: the non-empty texts among the first five senses. */
  function GetDefinitions(page: Page): (r: seq<string>)
    ensures |r| <= MaxDefinitions
    ensures NonEmptyPartOf(r, Take(page.senses, MaxDefinitions))
  {
    NonEmptyInWindow(page.senses, MaxDefinitions)
  }

  /** `_get_examples`: the non-empty texts among the first three examples. */
  function GetExamples(page: Page): (r: seq<string>)
    ensures |r| <= MaxExamples
    ensures NonEmptyPartOf(r, Take(page.exampleTexts, MaxExamples))
  {
    NonEmptyInWindow(page.exampleTexts, MaxExamples)
  }

  /** A subsequence never holds a text more often than the sequence it was
      taken from. */
  lemma {:induction false} SubsequenceCounts(a: seq<string>, b: seq<string>, x: string)
    requires IsSubsequence(a, b)
    ensures multiset(a)[x] <= multiset(b)[x]
    decreases |b|
  {
    if |a| > 0 {
      assert b == [b[0]] + b[1..];
      if a[0] == b[0] {
        SubsequenceCounts(a[1..], b[1..], x);
        assert a == [a[0]] + a[1..];
      } else {
        SubsequenceCounts(a, b[1..], x);
      }
    }
  }

  /** The description pins the selection down: the only sequence that is
      `s` without its empty texts is `KeepNonEmpty(s)`. */
  lemma {:induction false} NonEmptyPartOfUnique(r: seq<string>, s: seq<string>)
    requires NonEmptyPartOf(r, s)
    ensures r == KeepNonEmpty(s)
    decreases |s|
  {
    if |s| == 0 {
      assert |r| == 0;
    } else {
      assert s == [s[0]] + s[1..];
      if |r| > 0 && r[0] == s[0] {
        assert r == [r[0]] + r[1..];
        assert NonEmptyPartOf(r[1..], s[1..]) by {
          forall x | x != ""
            ensures multiset(r[1..])[x] == multiset(s[1..])[x]
          {
            assert multiset(r)[x] == multiset(s)[x];
          }
        }
        NonEmptyPartOfUnique(r[1..], s[1..]);
      } else {
        if s[0] != "" {
          SubsequenceCounts(r, s[1..], s[0]);
          assert false;
        }
        assert NonEmptyPartOf(r, s[1..]) by {
          forall x | x != ""
            ensures multiset(r)[x] == multiset(s[1..])[x]
          {
            assert multiset(r)[x] == multiset(s)[x];
          }
        }
        NonEmptyPartOfUnique(r, s[1..]);
      }
    }
  }

  /** Keeping the non-empty elements of a concatenation, part by part. */
  lemma {:induction false} KeepNonEmptyAppend(a: seq<string>, b: seq<string>)
    ensures KeepNonEmpty(a + b) == KeepNonEmpty(a) + KeepNonEmpty(b)
  {
    if |a| > 0 {
      KeepNonEmptyAppend(a[1..], b);
      assert (a + b)[0] == a[0];
      assert (a + b)[1..] == a[1..] + b;
      var head := if a[0] != "" then [a[0]] else [];
      assert KeepNonEmpty(a + b) == head + KeepNonEmpty(a[1..] + b);
      assert KeepNonEmpty(a) == head + KeepNonEmpty(a[1..]);
    } else {
      assert a + b == b;
    }
  }

  /** The loop `for e in candidates[:cap]: if e: texts.append(e)`. */
  method CollectNonEmpty(candidates: seq<string>, cap: nat) returns (texts: seq<string>)
    ensures texts == NonEmptyInWindow(candidates, cap)
  {
    var window := Take(candidates, cap);
    texts := [];
    var i := 0;
    while i < |window|
      invariant i <= |window|
      invariant texts == KeepNonEmpty(window[..i])
    {
      KeepNonEmptyAppend(window[..i], [window[i]]);
      assert window[..i + 1] == window[..i] + [window[i]];
      if window[i] != "" {
        texts := texts + [window[i]];
      }
      i := i + 1;
    }
    assert window[..i] == window;
  }

  /** Candidates past the window are never looked at. */
  lemma WindowIgnoresLater(candidates: seq<string>, more: seq<string>, cap: nat)
    requires |candidates| >= cap
    ensures NonEmptyInWindow(candidates + more, cap) == NonEmptyInWindow(candidates, cap)
  {
    assert (candidates + more)[..cap] == candidates[..cap];
  }

  /** Only the first match counts for pronunciation and part of speech. */
  lemma FirstWins(candidates: seq<string>, more: seq<string>)
    requires |candidates| > 0
    ensures FirstOrEmpty(candidates + more) == candidates[0]
  {
  }

  // ---------------------------------------------------------------------
  // The result policy

  /** `search_word`: fetch the page for the word's URL and extract a record,
      or nothing when the request fails or no definition was found. */
  function SearchWord(word: string, fetch: string -> Response): (r: Option<WordData>)
    ensures fetch(Url(word)).RequestFailed? ==> r.None?
    ensures fetch(Url(word)).Fetched? ==>
              (r.None? <==> GetDefinitions(fetch(Url(word)).page) == [])
    ensures r.Some? ==> r.value.word == word && IsExtracted(r.value)
  {
    match fetch(Url(word))
    case RequestFailed => None
    case Fetched(page) =>
      var result := WordData(
        word,
        Some(GetPronunciation(page)),
        Some(GetPartOfSpeech(page)),
        Some(GetDefinitions(page)),
        Some(GetExamples(page)));
      if |result.definitions.value| > 0 then Some(result) else None
  }

  /** A found record carries the page's selections: the first pronunciation
      and part of speech matched, or `""`, and the non-empty texts among the
      first five senses and the first three examples. */
  lemma SearchWordFields(word: string, fetch: string -> Response)
    requires SearchWord(word, fetch).Some?
    ensures fetch(Url(word)).Fetched?
    ensures var page := fetch(Url(word)).page;
            var d := SearchWord(word, fetch).value;
            && d.word == word
            && d.pronunciation == Some(if |page.phonetics| > 0 then page.phonetics[0] else "")
            && d.pos == Some(if |page.partsOfSpeech| > 0 then page.partsOfSpeech[0] else "")
            && NonEmptyPartOf(d.definitions.value, Take(page.senses, MaxDefinitions))
            && NonEmptyPartOf(d.examples.value, Take(page.exampleTexts, MaxExamples))
  {
  }
}

=== FILE: formatter.dfy ===
/** `AnkiFormatter` (oxford_dict.py): the flat five-field row written to the
    import file and the multi-line block shown on the console, together
    with the readers that take a row's fields apart again. */
module Formatter {
  import opened Wrappers
  import opened Record
  import opened Text
  import Decimal

  /** The marker between list items inside one row field. */
  const LineBreak := "<br>"
  /** The prefix of every example: a bullet and a space. */
  const BulletMark := "\U{2022} "
  /** The rule that opens and closes the display block: `'=' * 60`. */
  const Rule := Repeat('=', 60)

  // ---------------------------------------------------------------------
  // List items

  /** `f"{k}. {text}"`. */
  function NumberedItem(k: nat, text: string): string {
    Decimal.NatToString(k) + ". " + text
  }

  /** `f"• {text}"`. */
  function BulletItem(text: string): string {
    BulletMark + text
  }

  /** The items numbered from `first` on, as `enumerate(items, first)` does. */
  function NumberedItems(items: seq<string>, first: nat): (r: seq<string>)
    ensures |r| == |items|
    ensures forall i :: 0 <= i < |items| ==> r[i] == NumberedItem(first + i, items[i])
    decreases |items|
  {
    if |items| == 0 then []
    else [NumberedItem(first, items[0])] + NumberedItems(items[1..], first + 1)
  }

  /** The items each behind a bullet, as the generator over `examples` does. */
  function BulletItems(items: seq<string>): (r: seq<string>)
    ensures |r| == |items|
    ensures forall i :: 0 <= i < |items| ==> r[i] == BulletItem(items[i])
  {
    seq(|items|, i requires 0 <= i < |items| => BulletItem(items[i]))
  }

  // ---------------------------------------------------------------------
  // The row (format_for_csv)

  /** The definitions field: `"<br>".join(f"{i+1}. {d}" for i, d in enumerate(defs))`. */
  function DefinitionsBlock(defs: seq<string>): string {
    Join(NumberedItems(defs, 1), LineBreak)
  }

  /** The examples field: `"<br>".join(f"• {e}" for e in examples)`. */
  function ExamplesBlock(examples: seq<string>): string {
    Join(BulletItems(examples), LineBreak)
  }

  /** `format_for_csv`: word, pronunciation, part of speech, definitions and
      examples, a missing key giving its default. */
  function FormatForCsv(d: WordData): (row: seq<string>)
    ensures |row| == 5 && row[0] == d.word
    ensures d.pronunciation.None? ==> row[1] == ""
    ensures d.pronunciation.Some? ==> row[1] == d.pronunciation.value
    ensures d.pos.None? ==> row[2] == ""
    ensures d.pos.Some? ==> row[2] == d.pos.value
    ensures row[3] == "" <==> d.definitions.None? || |d.definitions.value| == 0
    ensures row[4] == "" <==> d.examples.None? || |d.examples.value| == 0
  {
    DefinitionsBlockEmpty(d.definitions.GetOr([]));
    ExamplesBlockEmpty(d.examples.GetOr([]));
    [ d.word,
      d.pronunciation.GetOr(""),
      d.pos.GetOr(""),
      DefinitionsBlock(d.definitions.GetOr([])),
      ExamplesBlock(d.examples.GetOr([])) ]
  }

  // ---------------------------------------------------------------------
  // Reading a row back

  /** Reads `"k. text"` back into `(k, text)`. */
  function ParseNumberedItem(segment: string): Option<(nat, string)> {
    match Find(segment, ". ")
    case None => None
    case Some(i) =>
      if i > 0 && Decimal.AllDigits(segment[..i])
      then Some((Decimal.ParseNat(segment[..i]), segment[i + 2..]))
      else None
  }

  /** Reads segments numbered `first`, `first + 1`, ... back into their texts. */
  function ParseNumberedItems(segments: seq<string>, first: nat): Option<seq<string>>
    decreases |segments|
  {
    if |segments| == 0 then Some([])
    else match ParseNumberedItem(segments[0])
      case None => None
      case Some((k, text)) =>
        if k != first then None
        else match ParseNumberedItems(segments[1..], first + 1)
          case None => None
          case Some(rest) => Some([text] + rest)
  }

  /** The definitions a definitions field was written from. */
  function ParseDefinitionsBlock(block: string): Option<seq<string>> {
    if block == "" then Some([])
    else ParseNumberedItems(Split(block, LineBreak), 1)
  }

  function ParseBulletItem(segment: string): Option<string> {
    if StartsWith(segment, BulletMark) then Some(segment[|BulletMark|..]) else None
  }

  function ParseBulletItems(segments: seq<string>): Option<seq<string>>
    decreases |segments|
  {
    if |segments| == 0 then Some([])
    else match ParseBulletItem(segments[0])
      case None => None
      case Some(text) =>
        match ParseBulletItems(segments[1..])
        case None => None
        case Some(rest) => Some([text] + rest)
  }

  /** The examples an examples field was written from. */
  function ParseExamplesBlock(block: string): Option<seq<string>> {
    if block == "" then Some([])
    else ParseBulletItems(Split(block, LineBreak))
  }

  /** The record a row was written from, every field present. */
  function ParseRow(row: seq<string>): Option<WordData> {
    if |row| != 5 then None
    else match (ParseDefinitionsBlock(row[3]), ParseExamplesBlock(row[4]))
      case (Some(defs), Some(examples)) =>
        Some(WordData(row[0], Some(row[1]), Some(row[2]), Some(defs), Some(examples)))
      case _ => None
  }

  // ---------------------------------------------------------------------
  // Properties of the row

  /** Items whose texts hold no `<br>` of their own. */
  ghost predicate NoLineBreaks(items: seq<string>) {
    forall i :: 0 <= i < |items| ==> !Contains(items[i], LineBreak)
  }

  lemma LineBreakUnbordered()
    ensures Unbordered(LineBreak)
  {
    assert LineBreak[1..] != LineBreak[..3] by { assert LineBreak[1..][0] != LineBreak[..3][0]; }
    assert LineBreak[2..] != LineBreak[..2] by { assert LineBreak[2..][0] != LineBreak[..2][0]; }
    assert LineBreak[3..] != LineBreak[..1] by { assert LineBreak[3..][0] != LineBreak[..1][0]; }
  }

  /** A numbered or bulleted item holds a `<br>` only if its text does: the
      prefixes contribute none. */
  lemma NumberedItemNoLineBreak(k: nat, text: string)
    requires !Contains(text, LineBreak)
    ensures !Contains(NumberedItem(k, text), LineBreak)
  {
    var prefix := Decimal.NatToString(k) + ". ";
    assert forall i :: 0 <= i < |prefix| ==> prefix[i] != '<';
    NoOccurrenceAfterPrefix(prefix, text, LineBreak);
  }

  lemma BulletItemNoLineBreak(text: string)
    requires !Contains(text, LineBreak)
    ensures !Contains(BulletItem(text), LineBreak)
  {
    NoOccurrenceAfterPrefix(BulletMark, text, LineBreak);
  }

  /** Each numbered item reads back as its number and text. */
  lemma ParseNumberedItemRoundTrip(k: nat, text: string)
    ensures ParseNumberedItem(NumberedItem(k, text)) == Some((k, text))
  {
    var digits := Decimal.NatToString(k);
    var sep := ". ";
    assert Unbordered(sep) by { assert sep[1..][0] != sep[..1][0]; }
    assert forall i :: 0 <= i < |digits| ==> digits[i] != sep[0];
    NoOccurrenceAfterPrefix(digits, "", sep);
    assert digits + "" == digits;
    FindAfterPart(digits, sep, text);
    var segment := NumberedItem(k, text);
    assert segment == digits + sep + text;
    assert segment[..|digits|] == digits;
    assert segment[|digits| + 2..] == text;
    Decimal.ParseNatToString(k);
  }

  lemma {:induction false} ParseNumberedItemsRoundTrip(items: seq<string>, first: nat)
    ensures ParseNumberedItems(NumberedItems(items, first), first) == Some(items)
    decreases |items|
  {
    if |items| > 0 {
      var segments := NumberedItems(items, first);
      assert segments[0] == NumberedItem(first, items[0]);
      ParseNumberedItemRoundTrip(first, items[0]);
      assert ParseNumberedItem(segments[0]) == Some((first, items[0]));
      assert segments[1..] == NumberedItems(items[1..], first + 1);
      ParseNumberedItemsRoundTrip(items[1..], first + 1);
      assert ParseNumberedItems(segments[1..], first + 1) == Some(items[1..]);
      assert items == [items[0]] + items[1..];
    }
  }

  lemma {:induction false} ParseBulletItemsRoundTrip(items: seq<string>)
    ensures ParseBulletItems(BulletItems(items)) == Some(items)
    decreases |items|
  {
    if |items| > 0 {
      var segments := BulletItems(items);
      assert segments[0][..|BulletMark|] == BulletMark;
      assert segments[0][|BulletMark|..] == items[0];
      ParseBulletItemsRoundTrip(items[1..]);
      assert segments[1..] == BulletItems(items[1..]);
      assert items == [items[0]] + items[1..];
    }
  }

  /** The definitions field is empty exactly when there are no definitions. */
  lemma DefinitionsBlockEmpty(defs: seq<string>)
    ensures DefinitionsBlock(defs) == "" <==> |defs| == 0
  {
    JoinEmpty(NumberedItems(defs, 1), LineBreak);
  }

  /** The examples field is empty exactly when there are no examples. */
  lemma ExamplesBlockEmpty(examples: seq<string>)
    ensures ExamplesBlock(examples) == "" <==> |examples| == 0
  {
    JoinEmpty(BulletItems(examples), LineBreak);
  }

  /** With N > 0 definitions, cutting the field at each `<br>` gives exactly
      the N items `"1. d1"`, ..., `"N. dN"`: N - 1 markers, none inside an item. */
  lemma DefinitionsBlockSegments(defs: seq<string>)
    requires |defs| > 0 && NoLineBreaks(defs)
    ensures Split(DefinitionsBlock(defs), LineBreak) == NumberedItems(defs, 1)
  {
    var items := NumberedItems(defs, 1);
    forall i | 0 <= i < |items|
      ensures !Contains(items[i], LineBreak)
    {
      NumberedItemNoLineBreak(1 + i, defs[i]);
    }
    LineBreakUnbordered();
    SplitJoin(items, LineBreak);
  }

  /** With M > 0 examples, cutting the field at each `<br>` gives exactly the
      M items `"• e1"`, ..., `"• eM"`. */
  lemma ExamplesBlockSegments(examples: seq<string>)
    requires |examples| > 0 && NoLineBreaks(examples)
    ensures Split(ExamplesBlock(examples), LineBreak) == BulletItems(examples)
  {
    var items := BulletItems(examples);
    forall i | 0 <= i < |items|
      ensures !Contains(items[i], LineBreak)
    {
      BulletItemNoLineBreak(examples[i]);
    }
    LineBreakUnbordered();
    SplitJoin(items, LineBreak);
  }

  /** The definitions field can be read back into the definitions. */
  lemma DefinitionsBlockRoundTrip(defs: seq<string>)
    requires NoLineBreaks(defs)
    ensures ParseDefinitionsBlock(DefinitionsBlock(defs)) == Some(defs)
  {
    DefinitionsBlockEmpty(defs);
    if |defs| > 0 {
      DefinitionsBlockSegments(defs);
      ParseNumberedItemsRoundTrip(defs, 1);
    }
  }

  /** The examples field can be read back into the examples. */
  lemma ExamplesBlockRoundTrip(examples: seq<string>)
    requires NoLineBreaks(examples)
    ensures ParseExamplesBlock(ExamplesBlock(examples)) == Some(examples)
  {
    ExamplesBlockEmpty(examples);
    if |examples| > 0 {
      ExamplesBlockSegments(examples);
      ParseBulletItemsRoundTrip(examples);
    }
  }

  /** A row reads back as the record it was written from, with every missing
      key replaced by its default: a missing field and an empty one give the
      same row. */
  lemma RowRoundTrip(d: WordData)
    requires NoLineBreaks(d.definitions.GetOr([]))
    requires NoLineBreaks(d.examples.GetOr([]))
    ensures ParseRow(FormatForCsv(d)) == Some(WithDefaults(d))
  {
    DefinitionsBlockRoundTrip(d.definitions.GetOr([]));
    ExamplesBlockRoundTrip(d.examples.GetOr([]));
  }

  /** No escaping: whatever text occurs in a definition or example, `<`, `>`
      and `&` included, occurs unchanged in its field. */
  lemma ItemTextPassesThrough(d: WordData, t: string)
    ensures forall k :: 0 <= k < |d.definitions.GetOr([])| && Contains(d.definitions.GetOr([])[k], t)
              ==> Contains(FormatForCsv(d)[3], t)
    ensures forall k :: 0 <= k < |d.examples.GetOr([])| && Contains(d.examples.GetOr([])[k], t)
              ==> Contains(FormatForCsv(d)[4], t)
  {
    var defs := d.definitions.GetOr([]);
    var examples := d.examples.GetOr([]);
    forall k | 0 <= k < |defs| && Contains(defs[k], t)
      ensures Contains(FormatForCsv(d)[3], t)
    {
      var prefix := Decimal.NatToString(1 + k) + ". ";
      ContainsInMiddle(prefix, defs[k], "", t);
      assert prefix + defs[k] + "" == NumberedItems(defs, 1)[k];
      JoinContainsPart(NumberedItems(defs, 1), LineBreak, k, t);
    }
    forall k | 0 <= k < |examples| && Contains(examples[k], t)
      ensures Contains(FormatForCsv(d)[4], t)
    {
      ContainsInMiddle(BulletMark, examples[k], "", t);
      assert BulletMark + examples[k] + "" == BulletItems(examples)[k];
      JoinContainsPart(BulletItems(examples), LineBreak, k, t);
    }
  }

  /** Because nothing is escaped, a definition that itself holds `<br>2. `
      gives the same field as two separate definitions. */
  lemma UnescapedMarkerIsAmbiguous()
    ensures DefinitionsBlock(["a<br>2. b"]) == DefinitionsBlock(["a", "b"])
  {
    assert Decimal.NatToString(1) == "1";
    assert Decimal.NatToString(2) == "2";
  }

  // ---------------------------------------------------------------------
  // The display block (format_for_display)

  /** Each line indented by two spaces. */
  function Indent(lines: seq<string>): (r: seq<string>)
    ensures |r| == |lines|
    ensures forall i :: 0 <= i < |lines| ==> r[i] == "  " + lines[i]
  {
    seq(|lines|, i requires 0 <= i < |lines| => "  " + lines[i])
  }

  const DefinitionsHeader := "\nDefinitions:"
  const ExamplesHeader := "\nExamples:"
  const WordLabel := "Word: "
  const PronunciationLabel := "Pronunciation: "
  const PosLabel := "Part of Speech: "

  /** The pronunciation line, when the pronunciation is present and non-empty. */
  function PronunciationLines(d: WordData): seq<string> {
    if HasText(d.pronunciation) then [PronunciationLabel + d.pronunciation.value] else []
  }

  /** The part-of-speech line, when the part of speech is present and non-empty. */
  function PosLines(d: WordData): seq<string> {
    if HasText(d.pos) then [PosLabel + d.pos.value] else []
  }

  /** The definitions header and the indented numbered definitions. */
  function DefinitionLines(d: WordData): seq<string> {
    if HasItems(d.definitions)
    then [DefinitionsHeader] + Indent(NumberedItems(d.definitions.value, 1))
    else []
  }

  /** The examples header and the indented bulleted examples. */
  function ExampleLines(d: WordData): seq<string> {
    if HasItems(d.examples)
    then [ExamplesHeader] + Indent(BulletItems(d.examples.value))
    else []
  }

  /** The `output` list of `format_for_display`: opening rule, word line,
      then each optional section only when its field is present and
      non-empty, then the closing rule. A "line" in this module is an
      element of this list; an element can itself hold line feeds (the
      opening rule, the headers, or a text that carries one), so it is not
      necessarily one text line of the joined block. */
  function DisplayLines(d: WordData): seq<string> {
    ["\n" + Rule, WordLabel + d.word]
    + PronunciationLines(d) + PosLines(d) + DefinitionLines(d) + ExampleLines(d)
    + [Rule + "\n"]
  }

  /** `format_for_display`: the lines joined with line feeds. */
  function FormatForDisplay(d: WordData): string {
    Join(DisplayLines(d), "\n")
  }

  /** Some line of `lines` starts with `prefix`. */
  ghost predicate HasLineStarting(lines: seq<string>, prefix: string) {
    exists i :: 0 <= i < |lines| && StartsWith(lines[i], prefix)
  }

  /** The block opens with a line feed, the 60-character rule and the word
      line, and closes with the rule and a line feed. */
  lemma DisplayFrame(d: WordData)
    ensures |Rule| == 60 && forall i :: 0 <= i < 60 ==> Rule[i] == '='
    ensures StartsWith(FormatForDisplay(d), "\n" + Rule + "\n" + WordLabel + d.word)
    ensures EndsWith(FormatForDisplay(d), "\n" + Rule + "\n")
    ensures Contains(FormatForDisplay(d), WordLabel + d.word)
  {
    var lines := DisplayLines(d);
    var out := FormatForDisplay(d);
    var opening := "\n" + Rule;
    var wordLine := WordLabel + d.word;
    var closing := Rule + "\n";
    assert lines[0] == opening && lines[1] == wordLine && lines[|lines| - 1] == closing;
    JoinStart(lines, "\n");
    JoinEnd(lines, "\n");
    var head := opening + "\n" + wordLine;
    assert out[..|head|] == head;
    assert "\n" + closing == "\n" + Rule + "\n";
    assert out[|opening + "\n"|..|head|] == wordLine;
    assert OccursAt(out, wordLine, |opening + "\n"|);
  }

  /** The definitions header is a line exactly when there are definitions,
      and the examples header exactly when there are examples. */
  lemma DisplayListSections(d: WordData)
    ensures DefinitionsHeader in DisplayLines(d) <==> HasItems(d.definitions)
    ensures ExamplesHeader in DisplayLines(d) <==> HasItems(d.examples)
  {
    var lines := DisplayLines(d);
    forall i | 0 <= i < |lines|
      ensures lines[i] == DefinitionsHeader ==> HasItems(d.definitions)
      ensures lines[i] == ExamplesHeader ==> HasItems(d.examples)
    {
      DisplayHeaderOrigin(d, i);
    }
  }

  /** The pronunciation line is there exactly when there is a pronunciation. */
  lemma DisplayPronunciationLine(d: WordData)
    ensures HasLineStarting(DisplayLines(d), PronunciationLabel) <==> HasText(d.pronunciation)
    ensures HasText(d.pronunciation) ==> DisplayLines(d)[2] == PronunciationLabel + d.pronunciation.value
  {
    var lines := DisplayLines(d);
    forall i | 0 <= i < |lines| && StartsWith(lines[i], PronunciationLabel)
      ensures HasText(d.pronunciation)
    {
      DisplayLabelOrigin(d, i);
    }
    if HasText(d.pronunciation) {
      DisplayLineAt(d, 2);
      assert lines[2][..|PronunciationLabel|] == PronunciationLabel;
      assert StartsWith(lines[2], PronunciationLabel);
    }
  }

  /** The part-of-speech line is there exactly when there is a part of speech. */
  lemma DisplayPosLine(d: WordData)
    ensures HasLineStarting(DisplayLines(d), PosLabel) <==> HasText(d.pos)
    ensures HasText(d.pos) ==>
              var j := if HasText(d.pronunciation) then 3 else 2;
              DisplayLines(d)[j] == PosLabel + d.pos.value
  {
    var lines := DisplayLines(d);
    forall i | 0 <= i < |lines| && StartsWith(lines[i], PosLabel)
      ensures HasText(d.pos)
    {
      DisplayLabelOrigin(d, i);
    }
    if HasText(d.pos) {
      var j := if HasText(d.pronunciation) then 3 else 2;
      DisplayLineAt(d, j);
      assert lines[j][..|PosLabel|] == PosLabel;
      assert StartsWith(lines[j], PosLabel);
    }
  }

  /** Where line `i` of the block comes from: the opening rule, the word
      line, the optional sections in order, or the closing rule. */
  lemma DisplayLineAt(d: WordData, i: nat)
    requires i < |DisplayLines(d)|
    ensures var line := DisplayLines(d)[i];
            var a := 2 + |PronunciationLines(d)|;
            var b := a + |PosLines(d)|;
            var c := b + |DefinitionLines(d)|;
            var e := c + |ExampleLines(d)|;
            && |DisplayLines(d)| == e + 1
            && (i == 0 ==> line == "\n" + Rule)
            && (i == 1 ==> line == WordLabel + d.word)
            && (2 <= i < a ==> line == PronunciationLines(d)[i - 2])
            && (a <= i < b ==> line == PosLines(d)[i - a])
            && (b <= i < c ==> line == DefinitionLines(d)[i - b])
            && (c <= i < e ==> line == ExampleLines(d)[i - c])
            && (i == e ==> line == Rule + "\n")
  {
    var head := ["\n" + Rule, WordLabel + d.word];
    var l1 := head + PronunciationLines(d);
    var l2 := l1 + PosLines(d);
    var l3 := l2 + DefinitionLines(d);
    var l4 := l3 + ExampleLines(d);
    var lines := l4 + [Rule + "\n"];
    assert lines == DisplayLines(d);
    if i < |l4| {
      assert lines[i] == l4[i];
      if i < |l3| {
        assert l4[i] == l3[i];
        if i < |l2| {
          assert l3[i] == l2[i];
          if i < |l1| {
            assert l2[i] == l1[i];
          }
        }
      }
    }
  }

  /** A line can only be a list header when that list is present and non-empty. */
  lemma DisplayHeaderOrigin(d: WordData, i: nat)
    requires i < |DisplayLines(d)|
    ensures DisplayLines(d)[i] == DefinitionsHeader ==> HasItems(d.definitions)
    ensures DisplayLines(d)[i] == ExamplesHeader ==> HasItems(d.examples)
  {
    var line := DisplayLines(d)[i];
    DisplayLineAt(d, i);
    var a := 2 + |PronunciationLines(d)|;
    var b := a + |PosLines(d)|;
    var c := b + |DefinitionLines(d)|;
    var e := c + |ExampleLines(d)|;
    assert DefinitionsHeader[1] == 'D' && ExamplesHeader[1] == 'E';
    if i == 0 {
      assert line[1] == '=';
    } else if i == 1 {
      assert line[0] == 'W';
    } else if i < b {
      assert line[0] == 'P';
    } else if i < c {
      if i > b {
        assert line[0] == ' ';
      } else {
        assert line[1] == 'D';
      }
    } else if i < e {
      if i > c {
        assert line[0] == ' ';
      } else {
        assert line[1] == 'E';
      }
    } else {
      assert line[0] == '=';
    }
  }

  /** A line that does not start with `P` carries neither label. */
  lemma NotLabelled(line: string)
    requires |line| > 0 && line[0] != 'P'
    ensures !StartsWith(line, PronunciationLabel) && !StartsWith(line, PosLabel)
  {
  }

  /** Outside the pronunciation and part-of-speech lines no line starts with `P`. */
  lemma DisplayUnlabelledLine(d: WordData, i: nat)
    requires i < |DisplayLines(d)|
    requires i < 2 || 2 + |PronunciationLines(d)| + |PosLines(d)| <= i
    ensures |DisplayLines(d)[i]| > 0 && DisplayLines(d)[i][0] != 'P'
  {
    var line := DisplayLines(d)[i];
    DisplayLineAt(d, i);
    var b := 2 + |PronunciationLines(d)| + |PosLines(d)|;
    var c := b + |DefinitionLines(d)|;
    var e := c + |ExampleLines(d)|;
    if i == 0 {
      assert line[0] == '\n';
    } else if i == 1 {
      assert line[0] == 'W';
    } else if i < c {
      assert line[0] == ' ' || line[0] == '\n';
    } else if i < e {
      assert line[0] == ' ' || line[0] == '\n';
    } else {
      assert line[0] == '=';
    }
  }

  /** A line can only carry the pronunciation or part-of-speech label when
      that field is present and non-empty. */
  lemma DisplayLabelOrigin(d: WordData, i: nat)
    requires i < |DisplayLines(d)|
    ensures StartsWith(DisplayLines(d)[i], PronunciationLabel) ==> HasText(d.pronunciation)
    ensures StartsWith(DisplayLines(d)[i], PosLabel) ==> HasText(d.pos)
  {
    var line := DisplayLines(d)[i];
    var a := 2 + |PronunciationLines(d)|;
    var b := a + |PosLines(d)|;
    if i < 2 || b <= i {
      DisplayUnlabelledLine(d, i);
      NotLabelled(line);
    } else {
      DisplayLineAt(d, i);
      if i < a {
        assert line[1] == 'r' && PosLabel[1] == 'a';
      } else {
        assert line[1] == 'a' && PronunciationLabel[1] == 'r';
      }
    }
  }

  /** The index of the definitions header: after the opening rule, the word
      line and whichever of the pronunciation and part-of-speech lines are
      there. */
  function DefinitionsStart(d: WordData): (h: nat)
    ensures h == 2 + (if HasText(d.pronunciation) then 1 else 0) + (if HasText(d.pos) then 1 else 0)
  {
    2 + |PronunciationLines(d)| + |PosLines(d)|
  }

  /** With definitions, the header is followed by the definitions numbered
      from 1 and indented, in order. */
  lemma DisplayDefinitionsListed(d: WordData)
    requires HasItems(d.definitions)
    ensures DefinitionsStart(d) + |d.definitions.value| < |DisplayLines(d)|
    ensures DisplayLines(d)[DefinitionsStart(d)] == DefinitionsHeader
    ensures forall i :: 0 <= i < |d.definitions.value| ==>
              DisplayLines(d)[DefinitionsStart(d) + 1 + i] == "  " + NumberedItem(i + 1, d.definitions.value[i])
  {
    DefinitionsLineAt(d, 0);
    forall i | 0 <= i < |d.definitions.value|
      ensures DisplayLines(d)[DefinitionsStart(d) + 1 + i] == "  " + NumberedItem(i + 1, d.definitions.value[i])
    {
      DefinitionAt(d, i);
    }
  }

  /** Definition `i` is the line `i + 1` after the definitions header. */
  lemma DefinitionAt(d: WordData, i: nat)
    requires HasItems(d.definitions) && i < |d.definitions.value|
    ensures DefinitionsStart(d) + 1 + i < |DisplayLines(d)|
    ensures DisplayLines(d)[DefinitionsStart(d) + 1 + i] == "  " + NumberedItem(i + 1, d.definitions.value[i])
  {
    var defs := d.definitions.value;
    var section := DefinitionLines(d);
    assert section[1 + i] == Indent(NumberedItems(defs, 1))[i];
    DefinitionsLineAt(d, 1 + i);
  }

  /** Line `j` of the definitions section is line `j` after the definitions
      start. */
  lemma DefinitionsLineAt(d: WordData, j: nat)
    requires j < |DefinitionLines(d)|
    ensures DefinitionsStart(d) + j < |DisplayLines(d)|
    ensures DisplayLines(d)[DefinitionsStart(d) + j] == DefinitionLines(d)[j]
  {
    var front := ["\n" + Rule, WordLabel + d.word] + PronunciationLines(d) + PosLines(d);
    var withSection := front + DefinitionLines(d);
    var withExamples := withSection + ExampleLines(d);
    assert DisplayLines(d) == withExamples + [Rule + "\n"];
    assert withExamples[|front| + j] == withSection[|front| + j];
  }

  /** With examples, the header is followed by the bulleted, indented examples
      in order, just before the closing rule. */
  lemma DisplayExamplesListed(d: WordData)
    requires HasItems(d.examples)
    ensures var lines := DisplayLines(d);
            var m := |d.examples.value|;
            && m + 2 <= |lines|
            && lines[|lines| - m - 2] == ExamplesHeader
            && forall i :: 0 <= i < m ==> lines[|lines| - m - 1 + i] == "  " + BulletItem(d.examples.value[i])
  {
    var examples := d.examples.value;
    var m := |examples|;
    assert |ExampleLines(d)| == 1 + m;
    DisplayLineAt(d, 0);
    var c := |DisplayLines(d)| - m - 2;
    DisplayLineAt(d, c);
    forall i | 0 <= i < m
      ensures DisplayLines(d)[c + 1 + i] == "  " + BulletItem(examples[i])
    {
      DisplayLineAt(d, c + 1 + i);
      assert ExampleLines(d)[1 + i] == Indent(BulletItems(examples))[i];
    }
  }

  /** The header text can still appear in a block without definitions when the
      word itself carries it; the absence of a section is a statement about
      lines, not about substrings. */
  lemma DisplayHeaderTextFromWord()
    ensures var d := WordData("Definitions:", None, None, None, None);
            !HasItems(d.definitions) && Contains(FormatForDisplay(d), "Definitions:")
  {
    var d := WordData("Definitions:", None, None, None, None);
    DisplayFrame(d);
    var out := FormatForDisplay(d);
    var k := |"\n" + Rule + "\n" + WordLabel|;
    assert out[k..k + 12] == "Definitions:";
    assert OccursAt(out, "Definitions:", k);
  }
}

=== FILE: pystr.dfy ===
/** The Python string methods the search term is built with:
    `str.lower`, `str.strip` and `str.replace`. */
module PyStr {

  /** Python's `str.isspace` for one character: tab, line feed, vertical tab,
      form feed, carriage return, the separators U+001C..U+001F, space, NEL,
      no-break space and the Unicode space characters. */
  predicate IsSpace(c: char) {
    var n := c as int;
    || 9 <= n <= 13
    || 0x1C <= n <= 0x20
    || n == 0x85 || n == 0xA0 || n == 0x1680
    || 0x2000 <= n <= 0x200A
    || n == 0x2028 || n == 0x2029 || n == 0x202F || n == 0x205F || n == 0x3000
  }

  predicate IsUpper(c: char) {
    'A' <= c <= 'Z'
  }

  /** Lower-casing of one character, over ASCII letters. */
  function LowerChar(c: char): (r: char)
    ensures !IsUpper(r)
    ensures !IsUpper(c) ==> r == c
  {
    if IsUpper(c) then (c as int + 32) as char else c
  }

  /** Lower-casing neither makes nor removes white space. */
  lemma LowerCharSpace(c: char)
    ensures IsSpace(LowerChar(c)) <==> IsSpace(c)
  {
  }

  /** `s.lower()`: every character lower-cased, none added or removed. */
  function Lower(s: string): (r: string)
    ensures |r| == |s|
    ensures forall i :: 0 <= i < |s| ==> r[i] == LowerChar(s[i])
  {
    if |s| == 0 then "" else [LowerChar(s[0])] + Lower(s[1..])
  }

  /** `s.lstrip()`: the suffix of `s` left after dropping the leading white space. */
  function LStrip(s: string): (r: string)
    ensures |r| <= |s| && r == s[|s| - |r|..]
    ensures forall i :: 0 <= i < |s| - |r| ==> IsSpace(s[i])
    ensures |r| > 0 ==> !IsSpace(r[0])
  {
    if |s| > 0 && IsSpace(s[0]) then LStrip(s[1..]) else s
  }

  /** `s.rstrip()`: the prefix of `s` left after dropping the trailing white space. */
  function RStrip(s: string): (r: string)
    ensures |r| <= |s| && r == s[..|r|]
    ensures forall i :: |r| <= i < |s| ==> IsSpace(s[i])
    ensures |r| > 0 ==> !IsSpace(r[|r| - 1])
  {
    if |s| > 0 && IsSpace(s[|s| - 1]) then RStrip(s[..|s| - 1]) else s
  }

  /** `r` is `s` with white space `s[..i]` removed in front and white space
      after `s[i + |r|..]` removed behind. */
  ghost predicate TrimmedAt(s: string, r: string, i: nat) {
    && i + |r| <= |s|
    && r == s[i..i + |r|]
    && (forall k :: 0 <= k < i ==> IsSpace(s[k]))
    && (forall k :: i + |r| <= k < |s| ==> IsSpace(s[k]))
  }

  /** `s.strip()`: what is left once white space is removed from both ends;
      it neither starts nor ends with white space. */
  function Strip(s: string): (r: string)
    ensures |r| <= |s|
    ensures |r| > 0 ==> !IsSpace(r[0]) && !IsSpace(r[|r| - 1])
  {
    RStrip(LStrip(s))
  }

  /** Where the stripped text starts inside `s`. */
  function StripStart(s: string): nat {
    |s| - |LStrip(s)|
  }

  /** `s.strip()` is the slice of `s` between white-space-only ends. */
  lemma StripSlice(s: string)
    ensures TrimmedAt(s, Strip(s), StripStart(s))
  {
    var l := LStrip(s);
    var r := RStrip(l);
    var i := |s| - |l|;
    assert l == s[i..];
    assert r == l[..|r|];
    PrefixOfSuffix(s, i, |r|);
    forall k | i + |r| <= k < |s|
      ensures IsSpace(s[k])
    {
      assert s[k] == l[k - i];
    }
  }

  /** The first `n` characters of `s[i..]` are `s[i..i + n]`. */
  lemma PrefixOfSuffix(s: string, i: nat, n: nat)
    requires i + n <= |s|
    ensures s[i..][..n] == s[i..i + n]
  {
  }

  /** `s.replace(from, to)` for single characters: every `from` becomes `to`,
      everything else is kept in place. */
  function ReplaceChar(s: string, from: char, to: char): (r: string)
    ensures |r| == |s|
    ensures forall i :: 0 <= i < |s| ==> r[i] == (if s[i] == from then to else s[i])
  {
    if |s| == 0 then "" else [if s[0] == from then to else s[0]] + ReplaceChar(s[1..], from, to)
  }

  /** Stripping a string that neither starts nor ends with white space
      changes nothing. */
  lemma StripTrimmed(s: string)
    requires |s| > 0 ==> !IsSpace(s[0]) && !IsSpace(s[|s| - 1])
    ensures Strip(s) == s
  {
    assert LStrip(s) == s;
    assert RStrip(s) == s;
  }

  /** Stripping keeps a string free of upper-case letters. */
  lemma StripNoUpper(s: string)
    requires forall i :: 0 <= i < |s| ==> !IsUpper(s[i])
    ensures forall k :: 0 <= k < |Strip(s)| ==> !IsUpper(Strip(s)[k])
  {
    var r := Strip(s);
    var i := StripStart(s);
    StripSlice(s);
    forall k | 0 <= k < |r|
      ensures !IsUpper(r[k])
    {
      assert r[k] == s[i + k];
    }
  }

  /** Lower-casing a string with no upper-case letter changes nothing. */
  lemma LowerNoUpper(s: string)
    requires forall i :: 0 <= i < |s| ==> !IsUpper(s[i])
    ensures Lower(s) == s
  {
  }

  /** Replacing a character that does not occur changes nothing. */
  lemma ReplaceAbsent(s: string, from: char, to: char)
    requires forall i :: 0 <= i < |s| ==> s[i] != from
    ensures ReplaceChar(s, from, to) == s
  {
  }
}

=== FILE: record.dfy ===
/** The word entry the script passes from the extractor to the formatters:
    a dictionary whose `word` key is always present and whose other keys
    may be missing. */
module Record {
  import opened Wrappers

  datatype WordData = WordData(
    word: string,
    pronunciation: Option<string>,
    pos: Option<string>,
    definitions: Option<seq<string>>,
    examples: Option<seq<string>>)

  /** Python truthiness of `word_data.get(key)` for a text field: present
      and non-empty. */
  predicate HasText(field: Option<string>) {
    field.Some? && field.value != ""
  }

  /** Python truthiness of `word_data.get(key)` for a list field: present
      and non-empty. */
  predicate HasItems(field: Option<seq<string>>) {
    field.Some? && |field.value| > 0
  }

  /** No element of `items` is the empty string. */
  predicate NoEmpty(items: seq<string>) {
    forall i :: 0 <= i < |items| ==> items[i] != ""
  }

  /** The same entry with every missing key filled in with its default:
      `""` for texts and `[]` for lists. */
  function WithDefaults(d: WordData): (r: WordData)
    ensures r.word == d.word
    ensures r.pronunciation.Some? && r.pos.Some? && r.definitions.Some? && r.examples.Some?
    ensures d.pronunciation.Some? ==> r.pronunciation == d.pronunciation
    ensures d.pos.Some? ==> r.pos == d.pos
    ensures d.definitions.Some? ==> r.definitions == d.definitions
    ensures d.examples.Some? ==> r.examples == d.examples
    ensures d.pronunciation.None? ==> r.pronunciation == Some("")
    ensures d.pos.None? ==> r.pos == Some("")
    ensures d.definitions.None? ==> r.definitions == Some([])
    ensures d.examples.None? ==> r.examples == Some([])
  {
    WordData(
      d.word,
      Some(d.pronunciation.GetOr("")),
      Some(d.pos.GetOr("")),
      Some(d.definitions.GetOr([])),
      Some(d.examples.GetOr([])))
  }
}

=== FILE: scenarios.dfy ===
/** Concrete inputs with the outputs test_oxford_dict.py expects of the
    formatter, and small pages that show the extractor's selection rules.
    Expected strings are written as the concatenation of the pieces the
    tests spell out, which is the same string. */
module Scenarios {
  import opened Wrappers
  import opened Record
  import Formatter
  import Extractor
  import Example
  import Decimal
  import Text
  import PyStr

  /** An item numbered below ten: its digit, a full stop, a space, the text. */
  lemma OneDigitItem(k: nat, text: string)
    requires 1 <= k <= 9
    ensures Formatter.NumberedItem(k, text) == [(48 + k) as char] + ". " + text
  {
    assert Decimal.NatToString(k) == [Decimal.DigitChar(k)];
  }

  lemma JoinTwo(a: string, b: string, sep: string)
    ensures Text.Join([a, b], sep) == a + sep + b
  {
    assert [a, b][1..] == [b];
  }

  lemma JoinThree(a: string, b: string, c: string, sep: string)
    ensures Text.Join([a, b, c], sep) == a + sep + b + sep + c
  {
    assert [a, b, c][1..] == [b, c];
    JoinTwo(b, c, sep);
  }

  lemma JoinFive(a: string, b: string, c: string, e: string, f: string, sep: string)
    ensures Text.Join([a, b, c, e, f], sep) == a + sep + b + sep + c + sep + e + sep + f
  {
    assert [a, b, c, e, f][1..] == [b, c, e, f];
    assert [b, c, e, f][1..] == [c, e, f];
    JoinThree(c, e, f, sep);
  }

  /** One definition is numbered 1 and stands alone. */
  lemma OneDefinition(a: string)
    ensures Formatter.DefinitionsBlock([a]) == "1. " + a
  {
    var items := Formatter.NumberedItems([a], 1);
    assert items[0] == "1. " + a by { OneDigitItem(1, a); }
    assert items == [items[0]];
  }

  /** Two definitions are numbered 1 and 2 and joined with `<br>`. */
  lemma TwoDefinitions(a: string, b: string)
    ensures Formatter.DefinitionsBlock([a, b]) == ("1. " + a) + "<br>" + ("2. " + b)
  {
    var items := Formatter.NumberedItems([a, b], 1);
    assert items[0] == "1. " + a by { OneDigitItem(1, a); }
    assert items[1] == "2. " + b by { OneDigitItem(2, b); }
    assert items == [items[0], items[1]];
    JoinTwo(items[0], items[1], "<br>");
  }

  /** Five definitions are numbered 1 to 5. */
  lemma FiveItems(a: string, b: string, c: string, e: string, f: string)
    ensures Formatter.NumberedItems([a, b, c, e, f], 1) == ["1. " + a, "2. " + b, "3. " + c, "4. " + e, "5. " + f]
  {
    var items := Formatter.NumberedItems([a, b, c, e, f], 1);
    assert items[0] == "1. " + a by { OneDigitItem(1, a); }
    assert items[1] == "2. " + b by { OneDigitItem(2, b); }
    assert items[2] == "3. " + c by { OneDigitItem(3, c); }
    assert items[3] == "4. " + e by { OneDigitItem(4, e); }
    assert items[4] == "5. " + f by { OneDigitItem(5, f); }
  }

  /** Five definitions are numbered 1 to 5 and joined with `<br>`. */
  lemma FiveDefinitions(a: string, b: string, c: string, e: string, f: string)
    ensures Formatter.DefinitionsBlock([a, b, c, e, f]) ==
              ("1. " + a) + "<br>" + ("2. " + b) + "<br>" + ("3. " + c) + "<br>" + ("4. " + e) + "<br>" + ("5. " + f)
  {
    FiveItems(a, b, c, e, f);
    JoinFive("1. " + a, "2. " + b, "3. " + c, "4. " + e, "5. " + f, "<br>");
  }

  /** Two examples are bulleted and joined with `<br>`. */
  lemma TwoExamples(a: string, b: string)
    ensures Formatter.ExamplesBlock([a, b]) == ("\U{2022} " + a) + "<br>" + ("\U{2022} " + b)
  {
    var bullets := Formatter.BulletItems([a, b]);
    assert bullets == [bullets[0], bullets[1]];
    JoinTwo(bullets[0], bullets[1], "<br>");
  }

  /** Three examples are bulleted and joined with `<br>`. */
  lemma ThreeExamples(a: string, b: string, c: string)
    ensures Formatter.ExamplesBlock([a, b, c]) ==
              ("\U{2022} " + a) + "<br>" + ("\U{2022} " + b) + "<br>" + ("\U{2022} " + c)
  {
    var bullets := Formatter.BulletItems([a, b, c]);
    assert bullets == [bullets[0], bullets[1], bullets[2]];
    JoinThree(bullets[0], bullets[1], bullets[2], "<br>");
  }

  /** The fixture of `TestAnkiFormatter.setUp`. */
  function TestRecord(): WordData {
    WordData(
      "test",
      Some("/test/"),
      Some("noun"),
      Some(["A procedure to check quality", "An examination of knowledge"]),
      Some(["This is a test.", "The test was difficult."]))
  }

  /** The full row for the fixture: numbered definitions and bulleted
      examples, each list joined with `<br>`. */
  lemma CsvBasic()
    ensures Formatter.FormatForCsv(TestRecord()) ==
              [ "test", "/test/", "noun",
                ("1. " + "A procedure to check quality") + "<br>" + ("2. " + "An examination of knowledge"),
                ("\U{2022} " + "This is a test.") + "<br>" + ("\U{2022} " + "The test was difficult.") ]
  {
    TwoDefinitions("A procedure to check quality", "An examination of knowledge");
    TwoExamples("This is a test.", "The test was difficult.");
  }

  /** Missing pronunciation, part of speech and examples give empty fields. */
  lemma CsvMinimal()
    ensures Formatter.FormatForCsv(WordData("minimal", None, None, Some(["Single definition"]), None)) ==
              ["minimal", "", "", "1. " + "Single definition", ""]
  {
    OneDefinition("Single definition");
  }

  /** `<`, `>` and `&` reach the row unescaped. */
  lemma CsvKeepsMarkup()
    ensures var row := Formatter.FormatForCsv(
              WordData("special", None, None, Some(["A <test> definition"]), Some(["Example with & characters"])));
            row[3] == "1. " + "A <test> definition" && row[4] == "\U{2022} " + "Example with & characters"
  {
    OneDefinition("A <test> definition");
    var bullets := Formatter.BulletItems(["Example with & characters"]);
    assert bullets == [bullets[0]];
  }

  /** Five definitions are numbered 1 to 5; three examples are all bulleted. */
  lemma CsvManyItems()
    ensures Formatter.FormatForCsv(
              WordData("test", None, None, Some(["Def 1", "Def 2", "Def 3", "Def 4", "Def 5"]), None))[3]
            == ("1. " + "Def 1") + "<br>" + ("2. " + "Def 2") + "<br>" + ("3. " + "Def 3") + "<br>"
               + ("4. " + "Def 4") + "<br>" + ("5. " + "Def 5")
    ensures Formatter.FormatForCsv(
              WordData("test", None, None, None, Some(["Ex 1", "Ex 2", "Ex 3"])))[4]
            == ("\U{2022} " + "Ex 1") + "<br>" + ("\U{2022} " + "Ex 2") + "<br>" + ("\U{2022} " + "Ex 3")
  {
    FiveDefinitions("Def 1", "Def 2", "Def 3", "Def 4", "Def 5");
    ThreeExamples("Ex 1", "Ex 2", "Ex 3");
  }

  /** The display lines of a record with only a word and one definition. */
  lemma DisplayMinimal()
    ensures Formatter.DisplayLines(WordData("test", None, None, Some(["Single definition"]), None)) ==
              [ "\n" + Formatter.Rule, "Word: " + "test", "\nDefinitions:", "  " + "1. " + "Single definition",
                Formatter.Rule + "\n" ]
  {
    var d := WordData("test", None, None, Some(["Single definition"]), None);
    var items := Formatter.NumberedItems(["Single definition"], 1);
    assert items[0] == "1. " + "Single definition" by { OneDigitItem(1, "Single definition"); }
    var indented := Formatter.Indent(items);
    assert |indented| == 1 && indented[0] == "  " + items[0];
    assert "  " + ("1. " + "Single definition") == "  " + "1. " + "Single definition";
    assert indented == ["  " + "1. " + "Single definition"];
    assert Formatter.DefinitionLines(d) == ["\nDefinitions:", "  " + "1. " + "Single definition"];
    assert Formatter.PronunciationLines(d) == [] && Formatter.PosLines(d) == [] && Formatter.ExampleLines(d) == [];
  }

  /** The fixture's `output` list: both labelled lines, the numbered
      definitions and the bulleted examples, each section under its header. */
  ghost predicate BasicLines(lines: seq<string>) {
    lines ==
      [ "\n" + Formatter.Rule, "Word: " + "test", "Pronunciation: " + "/test/", "Part of Speech: " + "noun",
        "\n" + "Definitions:",
        "  " + ("1. " + "A procedure to check quality"), "  " + ("2. " + "An examination of knowledge"),
        "\n" + "Examples:",
        "  " + ("\U{2022} " + "This is a test."), "  " + ("\U{2022} " + "The test was difficult."),
        Formatter.Rule + "\n" ]
  }

  /** `format_for_display` builds that list for the fixture. */
  lemma DisplayBasicLines()
    ensures BasicLines(Formatter.DisplayLines(TestRecord()))
  {
    var d := TestRecord();
    var defs := d.definitions.value;
    var items := Formatter.NumberedItems(defs, 1);
    assert items[0] == "1. " + defs[0] by { OneDigitItem(1, defs[0]); }
    assert items[1] == "2. " + defs[1] by { OneDigitItem(2, defs[1]); }
    assert Formatter.Indent(items) == ["  " + items[0], "  " + items[1]];
    var bullets := Formatter.BulletItems(d.examples.value);
    assert Formatter.Indent(bullets) == ["  " + bullets[0], "  " + bullets[1]];
    HeaderTexts();
  }

  /** Each section header is a line feed followed by its title. */
  lemma HeaderTexts()
    ensures Formatter.DefinitionsHeader == "\n" + "Definitions:"
    ensures Formatter.ExamplesHeader == "\n" + "Examples:"
  {
  }

  /** An element of a list that is `pre + t` puts `t` into the list's
      line-feed join. */
  lemma ElementInBlock(lines: seq<string>, k: nat, pre: string, t: string)
    requires k < |lines| && lines[k] == pre + t
    ensures Text.Contains(Text.Join(lines, "\n"), t)
  {
    assert Text.OccursAt(lines[k], t, |pre|);
    Text.JoinContainsPart(lines, "\n", k, t);
  }

  /** An element of a list is in the list's line-feed join. */
  lemma LineInBlock(lines: seq<string>, k: nat)
    requires k < |lines|
    ensures Text.Contains(Text.Join(lines, "\n"), lines[k])
  {
    assert Text.OccursAt(lines[k], lines[k], 0);
    Text.JoinContainsPart(lines, "\n", k, lines[k]);
  }

  /** Every text the display test looks for occurs in the line-feed join of
      the fixture's `output` list. */
  ghost predicate BasicTexts(out: string) {
    && Text.Contains(out, "Word: " + "test")
    && Text.Contains(out, "Pronunciation: " + "/test/")
    && Text.Contains(out, "Part of Speech: " + "noun")
    && Text.Contains(out, "Definitions:")
    && Text.Contains(out, "1. " + "A procedure to check quality")
    && Text.Contains(out, "Examples:")
    && Text.Contains(out, "\U{2022} " + "This is a test.")
    && Text.Contains(out, Formatter.Rule)
  }

  lemma BasicLinesHoldTexts(lines: seq<string>)
    requires BasicLines(lines)
    ensures BasicTexts(Text.Join(lines, "\n"))
  {
    LineInBlock(lines, 1);
    LineInBlock(lines, 2);
    LineInBlock(lines, 3);
    ElementInBlock(lines, 4, "\n", "Definitions:");
    ElementInBlock(lines, 5, "  ", "1. " + "A procedure to check quality");
    ElementInBlock(lines, 7, "\n", "Examples:");
    ElementInBlock(lines, 8, "  ", "\U{2022} " + "This is a test.");
    ElementInBlock(lines, 0, "\n", Formatter.Rule);
  }

  /** Every text the display test looks for in the fixture's block is there:
      the word, the pronunciation and part-of-speech lines, both headers, the
      first definition, the first example and the rule of 60 `=`. */
  lemma DisplayBasic()
    ensures BasicTexts(Formatter.FormatForDisplay(TestRecord()))
    ensures |Formatter.Rule| == 60 && forall i :: 0 <= i < 60 ==> Formatter.Rule[i] == '='
  {
    DisplayBasicLines();
    Formatter.DisplayFrame(TestRecord());
    BasicLinesHoldTexts(Formatter.DisplayLines(TestRecord()));
  }

  /** An empty first sense leaves a gap: the sixth sense is not looked at. */
  lemma DefinitionsWindowNotRefilled()
    ensures Extractor.GetDefinitions(Extractor.Page([], [], ["", "a", "b", "c", "d", "e"], [])) ==
              ["a", "b", "c", "d"]
  {
    var senses := ["", "a", "b", "c", "d", "e"];
    var window := Extractor.Take(senses, 5);
    assert window == ["", "a", "b", "c", "d"];
    // KeepNonEmpty drops the empty first sense and keeps the other four.
    assert Extractor.KeepNonEmpty(window) == Extractor.KeepNonEmpty(window[1..]);
    assert window[1..] == ["a", "b", "c", "d"];
  }

  /** A page with a pronunciation, a part of speech and examples but no
      sense yields no record. */
  lemma NoDefinitionsNoRecord()
    ensures var page := Extractor.Page(["/x/"], ["noun"], [], ["An example."]);
            Extractor.SearchWord("x", _ => Extractor.Fetched(page)) == None
  {
  }

  /** Each sample record of example.py has what the extractor promises of a
      found word: 1 to 5 non-empty definitions, at most 3 non-empty examples
      and every field present. */
  lemma SampleHelloExtracted()
    ensures Extractor.IsExtracted(Example.SampleHello())
  {
  }

  lemma SampleWorldExtracted()
    ensures Extractor.IsExtracted(Example.SampleWorld())
  {
  }

  lemma SampleExampleExtracted()
    ensures Extractor.IsExtracted(Example.SampleExample())
  {
  }

  /** All three sample records look like extracted records. */
  lemma SampleDataExtracted()
    ensures |Example.SampleData()| == 3
    ensures forall k :: 0 <= k < |Example.SampleData()| ==> Extractor.IsExtracted(Example.SampleData()[k])
  {
    SampleHelloExtracted();
    SampleWorldExtracted();
    SampleExampleExtracted();
  }

  /** A trailing space is dropped, not turned into `-`. */
  lemma SearchTermDropsTrailingSpace()
    ensures Extractor.SearchTerm("a ") == "a"
  {
    var word := "a ";
    var term := Extractor.SearchTerm(word);
    var start := PyStr.StripStart(PyStr.Lower(word));
    Extractor.SearchTermPlacement(word);
    assert !PyStr.IsSpace(word[0]) && PyStr.IsSpace(word[1]);
    assert start == 0;
    assert |term| == 1;
    assert term[0] == 'a';
  }
}

=== FILE: text.dfy ===
/** Sequences of characters: occurrence of a pattern, joining with a
    separator (Python's `sep.join(parts)`) and splitting on one
    (Python's `s.split(sep)`), the inverse used to read joined fields back. */
module Text {
  import opened Wrappers

  /** `t` occurs in `s` starting at index `i`. */
  predicate OccursAt(s: string, t: string, i: nat) {
    i + |t| <= |s| && s[i..i + |t|] == t
  }

  /** `t` is a substring of `s` (Python's `t in s`). */
  ghost predicate Contains(s: string, t: string) {
    exists i: nat :: OccursAt(s, t, i)
  }

  /** `s.startswith(t)`. */
  predicate StartsWith(s: string, t: string) {
    |t| <= |s| && s[..|t|] == t
  }

  /** `s.endswith(t)`. */
  predicate EndsWith(s: string, t: string) {
    |t| <= |s| && s[|s| - |t|..] == t
  }

  /** The first index at or after `i` where `t` occurs in `s`. */
  function FindFrom(s: string, t: string, i: nat): (r: Option<nat>)
    requires i <= |s|
    ensures r.Some? ==> i <= r.value && OccursAt(s, t, r.value)
    ensures r.Some? ==> forall j: nat :: i <= j < r.value ==> !OccursAt(s, t, j)
    ensures r.None? ==> forall j: nat :: i <= j ==> !OccursAt(s, t, j)
    decreases |s| - i
  {
    if i + |t| > |s| then None
    else if s[i..i + |t|] == t then Some(i)
    else FindFrom(s, t, i + 1)
  }

  /** The first index where `t` occurs in `s` (Python's `s.find(t)`). */
  function Find(s: string, t: string): (r: Option<nat>)
    ensures r.Some? ==> OccursAt(s, t, r.value)
    ensures r.Some? ==> forall j: nat :: j < r.value ==> !OccursAt(s, t, j)
    ensures r.None? <==> !Contains(s, t)
  {
    FindFrom(s, t, 0)
  }

  /** `parts` with `sep` between consecutive elements (Python's `sep.join(parts)`). */
  function Join(parts: seq<string>, sep: string): string {
    if |parts| == 0 then ""
    else if |parts| == 1 then parts[0]
    else parts[0] + sep + Join(parts[1..], sep)
  }

  /** `s` cut at every leftmost non-overlapping occurrence of `sep`
      (Python's `s.split(sep)`). Joining the pieces again gives `s` back,
      and no piece contains the separator. */
  function Split(s: string, sep: string): (parts: seq<string>)
    requires |sep| > 0
    ensures |parts| >= 1
    ensures Join(parts, sep) == s
    ensures forall k :: 0 <= k < |parts| ==> !Contains(parts[k], sep)
    decreases |s|
  {
    match Find(s, sep)
    case None => [s]
    case Some(i) =>
      var rest := Split(s[i + |sep|..], sep);
      assert s == s[..i] + sep + s[i + |sep|..];
      NoOccurrenceBefore(s, sep, i);
      [s[..i]] + rest
  }

  /** No proper suffix of `sep` is also a prefix of it, so two occurrences of
      `sep` can never overlap. */
  predicate Unbordered(sep: string) {
    forall k :: 0 < k < |sep| ==> sep[k..] != sep[..|sep| - k]
  }

  /** `n` copies of `c`. */
  function Repeat(c: char, n: nat): (r: string)
    ensures |r| == n
    ensures forall i :: 0 <= i < n ==> r[i] == c
  {
    seq(n, _ => c)
  }

  /** A non-empty `t` that does not start before `i` in `s` does not occur in `s[..i]`. */
  lemma NoOccurrenceBefore(s: string, t: string, i: nat)
    requires |t| > 0 && i <= |s|
    requires forall j: nat :: j < i ==> !OccursAt(s, t, j)
    ensures !Contains(s[..i], t)
  {
    forall j: nat
      ensures !OccursAt(s[..i], t, j)
    {
      if j + |t| <= i {
        assert s[..i][j..j + |t|] == s[j..j + |t|];
        assert !OccursAt(s, t, j);
      }
    }
  }

  /** An occurrence in `b` is an occurrence in `a + b + c`. */
  lemma ContainsInMiddle(a: string, b: string, c: string, t: string)
    requires Contains(b, t)
    ensures Contains(a + b + c, t)
  {
    var j: nat :| OccursAt(b, t, j);
    assert (a + b + c)[|a| + j..|a| + j + |t|] == b[j..j + |t|];
    assert OccursAt(a + b + c, t, |a| + j);
  }

  /** Prepending characters that cannot start `sep` creates no occurrence of it. */
  lemma NoOccurrenceAfterPrefix(a: string, b: string, sep: string)
    requires |sep| > 0
    requires forall i :: 0 <= i < |a| ==> a[i] != sep[0]
    requires !Contains(b, sep)
    ensures !Contains(a + b, sep)
  {
    forall j: nat
      ensures !OccursAt(a + b, sep, j)
    {
      if j < |a| {
        assert (a + b)[j] == a[j];
      } else if j + |sep| <= |a + b| {
        assert (a + b)[j..j + |sep|] == b[j - |a|..j - |a| + |sep|];
        assert !OccursAt(b, sep, j - |a|);
      }
    }
  }

  /** In `p + sep + rest` the first `sep` starts right after `p`, provided `p`
      holds no `sep` and occurrences of `sep` cannot overlap. */
  lemma FindAfterPart(p: string, sep: string, rest: string)
    requires |sep| > 0 && Unbordered(sep)
    requires !Contains(p, sep)
    ensures Find(p + sep + rest, sep) == Some(|p|)
  {
    var s := p + sep + rest;
    assert s[|p|..|p| + |sep|] == sep;
    assert OccursAt(s, sep, |p|);
    forall j: nat | j < |p|
      ensures !OccursAt(s, sep, j)
    {
      if j + |sep| <= |p| {
        assert s[j..j + |sep|] == p[j..j + |sep|];
        assert !OccursAt(p, sep, j);
      } else {
        var k := |p| - j;
        assert sep[k..] != sep[..|sep| - k];
        var m :| 0 <= m < |sep| - k && sep[k..][m] != sep[..|sep| - k][m];
        assert s[|p| + m] == sep[m];
        assert s[j..j + |sep|][k + m] != sep[k + m];
      }
    }
  }

  /** Splitting in the place of the first occurrence when a string holds none
      gives the string itself. */
  lemma SplitNoSeparator(s: string, sep: string)
    requires |sep| > 0 && !Contains(s, sep)
    ensures Split(s, sep) == [s]
  {
  }

  /** Split undoes Join when no part holds the separator and occurrences of
      the separator cannot overlap. */
  lemma {:induction false} SplitJoin(parts: seq<string>, sep: string)
    requires |sep| > 0 && Unbordered(sep)
    requires |parts| >= 1
    requires forall k :: 0 <= k < |parts| ==> !Contains(parts[k], sep)
    ensures Split(Join(parts, sep), sep) == parts
  {
    if |parts| == 1 {
      SplitNoSeparator(parts[0], sep);
    } else {
      var tail := Join(parts[1..], sep);
      var s := Join(parts, sep);
      assert s == parts[0] + sep + tail;
      FindAfterPart(parts[0], sep, tail);
      assert s[..|parts[0]|] == parts[0];
      assert s[|parts[0]| + |sep|..] == tail;
      SplitJoin(parts[1..], sep);
      assert parts == [parts[0]] + parts[1..];
    }
  }

  /** Every part of a join, and so every substring of a part, is a substring
      of the joined text: joining adds text and never alters it. */
  lemma {:induction false} JoinContainsPart(parts: seq<string>, sep: string, k: nat, t: string)
    requires k < |parts| && Contains(parts[k], t)
    ensures Contains(Join(parts, sep), t)
  {
    if |parts| == 1 {
    } else if k == 0 {
      ContainsInMiddle("", parts[0], sep + Join(parts[1..], sep), t);
      assert "" + parts[0] + (sep + Join(parts[1..], sep)) == Join(parts, sep);
    } else {
      JoinContainsPart(parts[1..], sep, k - 1, t);
      ContainsInMiddle(parts[0] + sep, Join(parts[1..], sep), "", t);
      assert parts[0] + sep + Join(parts[1..], sep) + "" == Join(parts, sep);
    }
  }

  /** The last part of a join comes after the last separator. */
  lemma {:induction false} JoinSnoc(parts: seq<string>, sep: string)
    requires |parts| >= 2
    ensures Join(parts, sep) == Join(parts[..|parts| - 1], sep) + sep + parts[|parts| - 1]
  {
    var n := |parts|;
    if n == 2 {
      assert Join(parts[1..], sep) == parts[1];
      assert Join(parts[..1], sep) == parts[0];
    } else {
      var front := parts[..n - 1];
      JoinSnoc(parts[1..], sep);
      assert parts[1..][..n - 2] == front[1..];
      assert parts[1..][n - 2] == parts[n - 1];
      assert Join(front, sep) == parts[0] + sep + Join(front[1..], sep);
      assert Join(parts, sep) == parts[0] + sep + Join(parts[1..], sep);
    }
  }

  /** A join of at least two parts starts with the first two parts, with
      the separator between them. */
  lemma JoinStart(parts: seq<string>, sep: string)
    requires |parts| >= 2
    ensures StartsWith(Join(parts, sep), parts[0] + sep + parts[1])
  {
    var head := parts[0] + sep + parts[1];
    var tail := parts[1..];
    if |parts| == 2 {
      assert Join(tail, sep) == parts[1];
      assert Join(parts, sep) == head;
    } else {
      assert Join(tail, sep) == parts[1] + sep + Join(tail[1..], sep);
      assert Join(parts, sep) == head + (sep + Join(tail[1..], sep));
    }
  }

  /** A join of at least two parts ends with the separator and the last part. */
  lemma JoinEnd(parts: seq<string>, sep: string)
    requires |parts| >= 2
    ensures EndsWith(Join(parts, sep), sep + parts[|parts| - 1])
  {
    JoinSnoc(parts, sep);
    var front := Join(parts[..|parts| - 1], sep);
    assert Join(parts, sep) == front + (sep + parts[|parts| - 1]);
  }

  /** A join is empty exactly when there is nothing to join or the only part
      is empty. */
  lemma JoinEmpty(parts: seq<string>, sep: string)
    requires |sep| > 0
    ensures Join(parts, sep) == "" <==> |parts| == 0 || (|parts| == 1 && parts[0] == "")
  {
  }
}

=== FILE: wrappers.dfy ===
/** The optional value used wherever the script may have "nothing": a
    dictionary key that is absent, a search with no result, a text that
    does not occur. */
module Wrappers {

  datatype Option<+T> = None | Some(value: T) {

    /** The wrapped value, or `default` when there is none (Python's
        `dict.get(key, default)`). */
    function GetOr(default: T): T {
      match this
      case Some(v) => v
      case None => default
    }
  }
}
